=== FILE: README.md ===
# Business signal engine — a Dafny model

This project models the rule-based core of a business-dashboard application: the
**signal detector**, which turns a table of transactions into an ordered list of typed
risk signals, and the **narrative renderer**, which turns that list into an executive
summary. It also models the dashboard's **health status** and severity **icon**, the
**schema check** for uploaded data, and the three **metric helpers** (profit, profit
margin, discount impact).

The detector applies four rules:

- **Revenue drop.** Weekly revenue is summed per distinct week, in ascending week
  order. A 4-position rolling mean that includes the current week is the baseline. A
  week whose change against the baseline is below -15% gives a drop signal. The signal
  is HIGH when the change is below -25% and names the (product, region) group with the
  most revenue in that week.
- **Low margin.** A MEDIUM signal when the mean profit margin is below 25%.
- **High churn.** A HIGH signal when more than 500 rows have churn risk "High".
- **Regional underperformance.** Always present and MEDIUM. It names the region with
  the least total profit.

Modelling choices:

- Money and ratios are exact `real`s. A pandas division by a zero baseline does not
  raise. The model keeps its IEEE outcome in `Floats.Ext`: -inf, +inf or NaN.
  Comparisons with NaN are false.
- pandas group keys are distinct and sorted ascending. `idxmax` and `idxmin` return the
  first extreme key in that order, so ties go to the smallest key. Python's string
  order is `Text.Less`, code point by code point.
- The CSV read inside the detector becomes an explicit `seq<Transaction>` parameter.
  The detector call inside the renderer becomes an explicit signal list.
- An empty table makes the Python detector's `idxmin` raise. `BusinessRules.Detect` returns a
  `Failure` for it.
- Float-to-text rendering is the parameter `num` of the renderer. Integers, such as the
  week and the churn count, are rendered exactly, as Python's `str` does.
- The rolling window includes the current week. Four weeks of 1000 followed by one week
  of 600 therefore give a baseline of 900 and a change of -1/3. They do not give 1000
  and -40%. The model follows the code (`BusinessRules.FifthWeekExample`).

Modules, by source file:

- `Results`, `Text`, `Floats`, `Records`: shared value types.
- `Metrics`: src/metrics.py.
- `Schema`: `validate_schema` in app.py.
- `Aggregates` and `Leaders`: the pandas grouping used by the detector.
- `BusinessRules`: src/rules/business_rules.py.
- `Health`: the health status and icon in app.py.
- `Insights`: src/ai/ai_insight_generator.py.

Every lemma carries `{:induction false}`. Where a proof needs induction, the lemma
states it explicitly.

## Model

| member | source | states |
|---|---|---|
| Floats.Div | src/rules/business_rules.py:17 | the quotient is finite exactly for a non-zero divisor and then multiplies back to the dividend; a zero divisor gives -inf for a negative dividend and NaN for a zero one |
| Floats.Scale | src/rules/business_rules.py:34 | multiplying a change by a positive factor keeps it finite or not, keeps its sign relative to 0, and leaves the infinities and NaN as they are |
| Floats.ScaleKeepsThresholds | src/rules/business_rules.py:34 | the change times k is below t times k exactly when the change is below t, for every threshold t: the percentage is the change scaled by 100 |
| Floats.Abs | src/ai/ai_insight_generator.py:27 | `abs` is never below 0, is finite exactly when its argument is, returns a value not below 0 unchanged and negates a value below 0 |
| Floats.AbsIgnoresSign | src/ai/ai_insight_generator.py:27 | a change and its negation print the same absolute value |
| Floats.BelowDivPositive | src/rules/business_rules.py:17-20 | dividing by a positive baseline: the ratio is `Below` t exactly when the dividend is below t times the baseline |
| Floats.BelowDivNegative | src/rules/business_rules.py:17-20 | dividing by a negative baseline flips that comparison |
| Text.LessIrreflexive | src/rules/business_rules.py:25-27 | no group key sorts before itself |
| Text.LessTransitive | src/rules/business_rules.py:25-27 | the order of string group keys is transitive |
| Text.LessTotal | src/rules/business_rules.py:25-27 | any two distinct keys are ordered by `Less`, so "the smallest key" among ties is well defined |
| Text.LessAsymmetric | src/rules/business_rules.py:25-27 | two keys are never each smaller than the other |
| Text.LessIsStrictOrder | src/rules/business_rules.py:61-62 | the order of region names, used to break ties between regions, is irreflexive and transitive for all strings |
| Text.NatText | src/ai/ai_insight_generator.py:34 | the printed churn count is a non-empty string of decimal digits with no leading zero except for 0 itself |
| Text.IntText | src/ai/ai_insight_generator.py:27 | the printed week starts with "-" exactly when it is negative, and the digits after it have no leading zero and read back as the magnitude of the week |
| Text.NatTextRoundTrip | src/ai/ai_insight_generator.py:34 | the printed count reads back as the count, so different counts print differently |
| Text.JoinAppend | src/ai/ai_insight_generator.py:61 | joining two non-empty lists of lines gives the join of the first, one separator, then the join of the second: each later line follows the earlier ones one separator apart |
| Text.JoinLength | src/ai/ai_insight_generator.py:61 | the joined text holds every line plus one separator between each pair of neighbours |
| Metrics.Profit | src/metrics.py:1-2 | profit plus cost equals sales |
| Metrics.ProfitMargin | src/metrics.py:5-8 | zero sales give margin 0 for any cost; otherwise margin times sales is the profit |
| Metrics.DiscountImpact | src/metrics.py:11-12 | the impact times 100 equals sales times the percentage |
| Metrics.BreakEvenMargin | src/metrics.py:5-8 | selling at cost gives margin 0 |
| Metrics.FreeGoodsMargin | src/metrics.py:5-8 | zero cost gives margin 1 |
| Metrics.MarginBounds | src/metrics.py:5-8 | on positive sales, margin < 1 iff cost > 0, and margin < 0 iff cost exceeds sales |
| Metrics.DiscountExtremes | src/metrics.py:11-12 | a 0% discount removes nothing and a 100% discount removes all sales |
| Metrics.DiscountAdditive | src/metrics.py:11-12 | the impacts of two percentages add up to the impact of their sum |
| Schema.ValidateSchema | app.py:19-34 | the result lists exactly the required columns absent from the input, each once, and is empty iff all twelve are present |
| Aggregates.InsertWeek | src/rules/business_rules.py:15 | adding one week to an ascending list of distinct weeks keeps it ascending and adds exactly that week |
| Aggregates.Weeks | src/rules/business_rules.py:15 | the grouped week index is strictly ascending and holds exactly the weeks that occur in the rows |
| Aggregates.RowShareOnce | src/rules/business_rules.py:15 | over distinct weeks, a row's revenue is counted once if its week is listed, else not at all |
| Aggregates.CoveringSeriesSum | src/rules/business_rules.py:15 | weekly totals over distinct weeks that cover every row add up to the total revenue |
| Aggregates.WeeklyRevenuePartitions | src/rules/business_rules.py:15 | the `WeekRevenue` series adds up to the revenue of the whole table |
| Aggregates.MarginSumAtLeast | src/rules/business_rules.py:43 | if every row's margin is at least t, the margin sum is at least n times t |
| Aggregates.AvgMarginBelowNeedsLowRow | src/rules/business_rules.py:43-44 | `AvgMargin`: the mean margin is below a threshold only if some row's margin is |
| Aggregates.ChurnCountIsHighRows | src/rules/business_rules.py:52 | the churn count is the number of rows whose churn risk is "High", counted as the multiplicity of "High" in the churn-risk column |
| Leaders.DriverLessIsStrictOrder | src/rules/business_rules.py:25-27 | the (product, region) key order is irreflexive and transitive |
| Leaders.DriverLessTotal | src/rules/business_rules.py:25-27 | any two distinct (product, region) keys are ordered |
| Leaders.WeekDrivers | src/rules/business_rules.py:21-25 | lists exactly the (product, region) groups occurring in the week, and is non-empty when the week occurs |
| Leaders.MaxDriver | src/rules/business_rules.py:25-27 | picks a candidate whose week revenue no candidate beats and which sorts first among those it ties with |
| Leaders.TopDriverCharacterized | src/rules/business_rules.py:21-28 | a group is `TopDriver` of the week iff it occurs in the week, no group of the week has more revenue, and no tying group sorts before it |
| Leaders.MinRegion | src/rules/business_rules.py:61-62 | picks a candidate whose total profit no candidate undercuts and which sorts first among those it ties with |
| Leaders.WorstRegionCharacterized | src/rules/business_rules.py:61-62 | a region is `WorstRegion` of the table iff it occurs, no region has less total profit (`RegionProfit`), and no tying region sorts before it |
| BusinessRules.Baseline | src/rules/business_rules.py:16 | the rolling mean is missing at positions 0-2 and is otherwise a quarter of the revenue at positions i-3..i |
| BusinessRules.BaselineWithinWindow | src/rules/business_rules.py:16 | a baseline lies between the least and greatest revenue of its window |
| BusinessRules.Change | src/rules/business_rules.py:17 | the change at positions 0-2 is NaN; from position 3 on, against a non-zero baseline m it is finite and the change times m is the week's revenue minus m |
| BusinessRules.DropSeverity | src/rules/business_rules.py:32 | HIGH exactly when the unrounded change is below -25% |
| BusinessRules.DropRuleCharacterized | src/rules/business_rules.py:16-20 | `Fires`: positions 0-2 never fire; later a week fires iff its revenue is under 85% of a positive baseline, over 85% of a negative one, or negative against a zero one |
| BusinessRules.SevereRuleCharacterized | src/rules/business_rules.py:32 | a drop is HIGH iff the revenue is under 75% of a positive baseline, over 75% of a negative one, or negative against a zero one |
| BusinessRules.ZeroBaselineNeverFires | src/rules/business_rules.py:17-20 | with non-negative revenue a zero baseline gives NaN, which never fires |
| BusinessRules.FifthWeekExample | src/rules/business_rules.py:15-20 | weekly revenue 1000, 1000, 1000, 1000, 600 gives baseline 900, change -1/3, and a HIGH drop |
| BusinessRules.DropSignal | src/rules/business_rules.py:30-40 | a drop signal carries its week and the label "4-week average"; it is HIGH iff the change is below -25%; its percentage is negative iff the change is |
| BusinessRules.DropSignalPercent | src/rules/business_rules.py:34 | the reported percentage is the change times 100: below t times 100 exactly when the change is below t, for every t |
| BusinessRules.DropDriverIsTop | src/rules/business_rules.py:21-28 | the driver a drop signal names is the top group of its week |
| BusinessRules.FiringPositions | src/rules/business_rules.py:19-20 | lists, strictly ascending, exactly the positions whose change fires |
| BusinessRules.RevenueDropSignals | src/rules/business_rules.py:19-40 | every signal of the drop phase is a revenue drop |
| BusinessRules.Detect | src/rules/business_rules.py:6-70 | an empty table fails; any other table yields a non-empty list |
| BusinessRules.DetectOrder | src/rules/business_rules.py:14-68 | kinds appear in rule order: drops, low margin, high churn, regional |
| BusinessRules.DropPositions | src/rules/business_rules.py:19-40 | the output opens with one drop signal per firing week, in week order, each built by `DropSignal` for its position, and no drop signal comes later |
| BusinessRules.DetectDropWeeksOccur | src/rules/business_rules.py:19-21 | every drop signal names a week that occurs in the table |
| BusinessRules.DetectDrops | src/rules/business_rules.py:19-40 | every drop signal names a week of the table; a week of the table has a drop signal iff its change fires (`Fires`), and that signal is the week's drop signal |
| BusinessRules.DetectDropWeeksAscend | src/rules/business_rules.py:15-19 | drop signals come in strictly ascending week order, so at most one per week |
| BusinessRules.DetectLowMargin | src/rules/business_rules.py:43-49 | `MarginSignals` in the output: a low-margin signal is present iff the mean margin is below 25%; at most one; MEDIUM; it carries the mean margin as a percentage |
| BusinessRules.DetectHighChurn | src/rules/business_rules.py:52-58 | `ChurnSignals` in the output: a high-churn signal is present iff more than 500 rows are "High"; at most one; HIGH; it carries that count |
| BusinessRules.DetectRegionalLast | src/rules/business_rules.py:61-68 | `RegionalSignal` in the output: the last signal is the only regional one; it is MEDIUM and names the worst region |
| Health.StatusLabel | app.py:110-115 | "Needs Attention" is the text of exactly the needs-attention status, "Monitor" of the monitor status and "Stable" of the stable status |
| Health.StatusLabelOfSignals | app.py:110-115 | the status text is "Needs Attention" iff some signal is HIGH, "Monitor" iff some is MEDIUM and none is HIGH, and "Stable" iff there is no signal |
| Health.HealthBySeverities | app.py:110-115 | `HealthOf` needs attention iff HIGH is present; monitor iff MEDIUM is present without HIGH; stable iff no severity is present |
| Health.StableIffNoSignals | app.py:114-115 | only the empty list is stable |
| Health.HealthDependsOnlyOnSeverities | app.py:105-115 | two lists with the same severities have the same health |
| Health.HealthIgnoresOrder | app.py:110-115 | reordering the signals does not change the health |
| Health.DetectedHealthNeverStable | app.py:107-115 | on any table the detector accepts, the health is never stable |
| Health.HighDropIsSevere | src/rules/business_rules.py:32 | a HIGH drop signal comes from a week whose change is below -25% |
| Health.HighSignalAtIsSevere | src/rules/business_rules.py:14-58 | the output signal at any given position, if HIGH, comes from a change below -25% or from more than 500 high-churn rows (margin and regional signals are never HIGH) |
| Health.HighSignalMeansSevereData | src/rules/business_rules.py:14-58 | on a non-empty table, if any output signal is HIGH, some change is below -25% or more than 500 rows are at high churn risk |
| Health.HighChurnMeansHighSignal | src/rules/business_rules.py:52-58 | more than 500 high-churn rows put a HIGH signal in the output |
| Health.SevereDropMeansHighSignal | src/rules/business_rules.py:19-32 | a week whose change is below -25% puts a HIGH signal in the output |
| Health.SevereDataMeansHighSignal | src/rules/business_rules.py:14-58 | a severe drop or high churn always yields a HIGH signal |
| Health.DetectedHealth | app.py:107-115 | on a non-empty table, the health needs attention iff some change is below -25% or more than 500 rows are "High", and is "Monitor" otherwise |
| Health.Icon | app.py:163 | the icon is red iff the severity is HIGH and orange iff it is MEDIUM |
| Insights.Headline | src/ai/ai_insight_generator.py:16-19 | the headline says "Needs Immediate Attention" iff some signal is HIGH, and "Monitor Closely" otherwise |
| Insights.HeadlineMatchesHealth | src/ai/ai_insight_generator.py:10-19 | on a non-empty list, the headline and the dashboard's health status agree |
| Insights.ObservationNamesItsKind | src/ai/ai_insight_generator.py:24-47 | the template kind read back from an `Observation` line is its signal's kind |
| Insights.DropObservationCites | src/ai/ai_insight_generator.py:25-30 | a drop observation contains the absolute change, the week, the baseline label, the product and the region; it reads the same for a change and its negation |
| Insights.ChurnObservationCites | src/ai/ai_insight_generator.py:32-36 | a churn observation contains the printed number of high-churn rows |
| Insights.MarginObservationCites | src/ai/ai_insight_generator.py:38-42 | a low-margin observation contains the printed mean margin |
| Insights.RegionObservationCites | src/ai/ai_insight_generator.py:44-47 | a regional observation contains the region |
| Insights.ObservationCitesFields | src/ai/ai_insight_generator.py:24-47 | every observation line contains every field its template prints: the drop's size, week, label, product and region, the churn count, the mean margin, or the region |
| Insights.RecommendationInjective | src/ai/ai_insight_generator.py:52-59 | different kinds have different `Recommendation` lines |
| Insights.RecommendedKinds | src/ai/ai_insight_generator.py:52-59 | a kind is recommended iff a signal of that kind is present, in the order drop, churn, margin, regional |
| Insights.RecommendationCount | src/ai/ai_insight_generator.py:52-59 | there are as many recommendations as distinct kinds present |
| Insights.Recommendations | src/ai/ai_insight_generator.py:52-59 | line i is the recommendation of the i-th recommended kind, so the lines follow the fixed order drop, churn, margin, regional |
| Insights.RecommendationsOncePerKind | src/ai/ai_insight_generator.py:52-59 | a kind's recommendation is listed iff that kind is present, and no line is listed twice |
| Insights.Observations | src/ai/ai_insight_generator.py:24-47 | one line per signal, and line i reads back as the kind of signal i, so the lines follow the input order |
| Insights.ObservationsCiteSignals | src/ai/ai_insight_generator.py:24-47 | observation line i is of the kind of signal i and contains signal i's fields |
| Insights.ReportReadsBack | src/ai/ai_insight_generator.py:13-59 | the lines are the headline for the severities present, "Key Observations:", one line per signal in input order reading back as its kind, the actions header, then the recommendation of each kind present in the fixed order |
| Insights.ReportCounts | src/ai/ai_insight_generator.py:13-59 | a report of n signals of k distinct kinds has 3 + n + k lines, and its recommendation block names exactly the kinds present |
| Insights.InsightText | src/ai/ai_insight_generator.py:4-61 | `generate_ai_insights`: the stable sentence is the text exactly for the empty list, and any other text opens with its headline; `Insights.InsightTextLayout` states the rest of the joined text |
| Insights.InsightTextLayout | src/ai/ai_insight_generator.py:24-61 | a report's text is its headline, a newline, the observations header, a newline, then the observations, the actions header and the recommendations joined by newlines, in that order |
| Insights.JoinContains | src/ai/ai_insight_generator.py:61 | the newline-joined text contains each of its lines |
| Insights.InsightTextCitesObservations | src/ai/ai_insight_generator.py:24-61 | a report's text contains the observation of every signal |
| Insights.InsightTextCitesRecommendations | src/ai/ai_insight_generator.py:52-61 | a report's text contains the recommendation of every kind present |

## Left out

- Streamlit page layout, charts, file upload, the `st.stop()` flow and the per-signal
  dashboard cards (app.py:11-229 outside the modelled lines): presentation and I/O.
- The "Informational" health branch (app.py:116-117) is never taken. The guarding flag
  is the constant `True` (app.py:92).
- The dashboard runs the detector on the processed data file, not on the uploaded
  table (src/rules/business_rules.py:11). The model passes the table as a parameter.
- CSV reading and the hard-coded paths: these are I/O.
- Synthetic data generation (src/etl/generate_data.py): random sampling and file output.
- The ETL pipeline (src/etl/etl_pipeline.py): date parsing, ISO week numbering, float
  rounding, CSV I/O. `week`, `month` and `profit_margin` are given fields of
  `Records.Transaction`.
- The report writer (src/delivery/report_generator.py): a file write.
- The "recent margin" display (app.py:103, app.py:135): a UI-only mean over the last 50
  rows by date.
- BusinessRules.DropSignal: carries `change_pct` as the unrounded change times 100
  (`BusinessRules.DropSignalPercent`). The Python detector rounds it to one decimal, and float
  rounding is not modelled.
- BusinessRules.DetectLowMargin: carries the unrounded mean margin times 100. The
  Python detector rounds it to one decimal.
- Insights.DropObservationCites: how the percentage is printed is left to the `num`
  parameter. Decimal formatting of floats is not modelled.
- Floats.Div: assumes a zero baseline is a positive zero. Signed zero, overflow and
  rounding of IEEE floats are not modelled.
- Schema.ValidateSchema: the order of the missing columns is left unspecified. The
  program lists a Python set, whose iteration order is not defined.

=== FILE: aggregates.dfy ===
/** The grouped sums the detector reads from the transaction table: the sorted
    distinct weeks, revenue per week, profit per region, the mean margin and the
    number of high-churn rows. */
module Aggregates {
  import opened Records

  predicate Increasing(ws: seq<int>) {
    forall i, j :: 0 <= i < j < |ws| ==> ws[i] < ws[j]
  }

  /** Some row falls in week `w`. */
  predicate HasWeek(txs: seq<Transaction>, w: int) {
    exists i :: 0 <= i < |txs| && txs[i].week == w
  }

  /** Inserts `w` into an ascending list of distinct weeks. */
  function InsertWeek(ws: seq<int>, w: int): (r: seq<int>)
    requires Increasing(ws)
    ensures Increasing(r)
    ensures forall x :: x in r <==> x in ws || x == w
  {
    if |ws| == 0 then [w]
    else if w < ws[0] then [w] + ws
    else if w == ws[0] then ws
    else
      var tail := InsertWeek(ws[1..], w);
      assert forall k :: 0 <= k < |tail| ==> tail[k] in ws[1..] || tail[k] == w;
      [ws[0]] + tail
  }

  lemma {:induction false} HasWeekSnoc(txs: seq<Transaction>, w: int)
    requires |txs| > 0
    ensures HasWeek(txs, w) <==> HasWeek(txs[..|txs| - 1], w) || txs[|txs| - 1].week == w
  {
    var init := txs[..|txs| - 1];
    if HasWeek(init, w) {
      var i :| 0 <= i < |init| && init[i].week == w;
      assert txs[i].week == w;
    }
  }

  /** The week index of the grouped table, sorted: every week that occurs
      in the rows, once, ascending. */
  function Weeks(txs: seq<Transaction>): (ws: seq<int>)
    ensures Increasing(ws)
    ensures forall w :: w in ws <==> HasWeek(txs, w)
  {
    if |txs| == 0 then []
    else
      var init := txs[..|txs| - 1];
      HasWeekSnocAll(txs);
      InsertWeek(Weeks(init), txs[|txs| - 1].week)
  }

  lemma {:induction false} HasWeekSnocAll(txs: seq<Transaction>)
    requires |txs| > 0
    ensures forall w :: HasWeek(txs, w) <==> HasWeek(txs[..|txs| - 1], w) || txs[|txs| - 1].week == w
  {
    forall w
      ensures HasWeek(txs, w) <==> HasWeek(txs[..|txs| - 1], w) || txs[|txs| - 1].week == w
    {
      HasWeekSnoc(txs, w);
    }
  }

  /** Total revenue of the rows of week `w`. */
  function WeekRevenue(txs: seq<Transaction>, w: int): real {
    if |txs| == 0 then 0.0
    else (if txs[0].week == w then txs[0].revenue else 0.0) + WeekRevenue(txs[1..], w)
  }

  /** The weekly revenue series: `WeekRevenue` at each of `ws`, position by position. */
  function RevenueSeries(txs: seq<Transaction>, ws: seq<int>): (revs: seq<real>)
    ensures |revs| == |ws|
    ensures forall i :: 0 <= i < |ws| ==> revs[i] == WeekRevenue(txs, ws[i])
  {
    seq(|ws|, i requires 0 <= i < |ws| => WeekRevenue(txs, ws[i]))
  }

  function TotalRevenue(txs: seq<Transaction>): real {
    if |txs| == 0 then 0.0 else txs[0].revenue + TotalRevenue(txs[1..])
  }

  /** Sum over the weeks `ws` of the revenue of one row that falls in one of them. */
  function RowShare(t: Transaction, ws: seq<int>): real {
    if |ws| == 0 then 0.0
    else (if t.week == ws[0] then t.revenue else 0.0) + RowShare(t, ws[1..])
  }

  function SeriesSum(revs: seq<real>): real {
    if |revs| == 0 then 0.0 else revs[0] + SeriesSum(revs[1..])
  }

  /** A row is counted once across distinct weeks that include its own. */
  lemma {:induction false} RowShareOnce(t: Transaction, ws: seq<int>)
    requires Increasing(ws)
    ensures RowShare(t, ws) == if t.week in ws then t.revenue else 0.0
  {
    if |ws| > 0 {
      RowShareOnce(t, ws[1..]);
      if t.week == ws[0] {
        assert t.week !in ws[1..];
      }
    }
  }

  /** Peeling the first row off every weekly total. */
  lemma {:induction false} SeriesSumCons(txs: seq<Transaction>, ws: seq<int>)
    requires |txs| > 0
    ensures SeriesSum(RevenueSeries(txs, ws))
         == RowShare(txs[0], ws) + SeriesSum(RevenueSeries(txs[1..], ws))
  {
    if |ws| > 0 {
      SeriesSumCons(txs, ws[1..]);
      assert RevenueSeries(txs, ws)[1..] == RevenueSeries(txs, ws[1..]);
      assert RevenueSeries(txs[1..], ws)[1..] == RevenueSeries(txs[1..], ws[1..]);
    }
  }

  /** Weekly totals over any ascending list of weeks that covers every row add up
      to the total revenue. */
  lemma {:induction false} CoveringSeriesSum(txs: seq<Transaction>, ws: seq<int>)
    requires Increasing(ws)
    requires forall i :: 0 <= i < |txs| ==> txs[i].week in ws
    ensures SeriesSum(RevenueSeries(txs, ws)) == TotalRevenue(txs)
  {
    if |txs| == 0 {
      SeriesSumZero(ws);
    } else {
      SeriesSumCons(txs, ws);
      RowShareOnce(txs[0], ws);
      CoveringSeriesSum(txs[1..], ws);
    }
  }

  lemma {:induction false} SeriesSumZero(ws: seq<int>)
    ensures SeriesSum(RevenueSeries([], ws)) == 0.0
  {
    if |ws| > 0 {
      assert RevenueSeries([], ws)[1..] == RevenueSeries([], ws[1..]);
      SeriesSumZero(ws[1..]);
    }
  }

  /** Grouping by week partitions the rows: the weekly revenue series adds up to
      the revenue of the whole table. */
  lemma {:induction false} WeeklyRevenuePartitions(txs: seq<Transaction>)
    ensures SeriesSum(RevenueSeries(txs, Weeks(txs))) == TotalRevenue(txs)
  {
    var ws := Weeks(txs);
    forall i | 0 <= i < |txs|
      ensures txs[i].week in ws
    {
      assert HasWeek(txs, txs[i].week);
    }
    CoveringSeriesSum(txs, ws);
  }

  /** Total profit of the rows of `region`. */
  function RegionProfit(txs: seq<Transaction>, region: string): real {
    if |txs| == 0 then 0.0
    else (if txs[0].region == region then txs[0].profit else 0.0) + RegionProfit(txs[1..], region)
  }

  function MarginSum(txs: seq<Transaction>): real {
    if |txs| == 0 then 0.0 else txs[0].profitMargin + MarginSum(txs[1..])
  }

  /** The mean profit margin of a non-empty table. */
  function AvgMargin(txs: seq<Transaction>): real
    requires |txs| > 0
  {
    MarginSum(txs) / |txs| as real
  }

  lemma {:induction false} MarginSumAtLeast(txs: seq<Transaction>, t: real)
    requires forall i :: 0 <= i < |txs| ==> txs[i].profitMargin >= t
    ensures MarginSum(txs) >= |txs| as real * t
  {
    if |txs| > 0 {
      MarginSumAtLeast(txs[1..], t);
    }
  }

  /** The mean margin can only fall below a threshold if some row's margin does. */
  lemma {:induction false} AvgMarginBelowNeedsLowRow(txs: seq<Transaction>, t: real)
    requires |txs| > 0
    requires AvgMargin(txs) < t
    ensures exists i :: 0 <= i < |txs| && txs[i].profitMargin < t
  {
    if forall i :: 0 <= i < |txs| ==> txs[i].profitMargin >= t {
      MarginSumAtLeast(txs, t);
    }
  }

  /** The churn-risk column, row by row. */
  function ChurnRisks(txs: seq<Transaction>): (risks: seq<string>)
    ensures |risks| == |txs|
    ensures forall i :: 0 <= i < |txs| ==> risks[i] == txs[i].churnRisk
  {
    seq(|txs|, i requires 0 <= i < |txs| => txs[i].churnRisk)
  }

  /** The number of rows whose churn risk is "High". */
  function ChurnCount(txs: seq<Transaction>): (n: nat)
    ensures n <= |txs|
    ensures n == 0 <==> forall i :: 0 <= i < |txs| ==> txs[i].churnRisk != HighChurnRisk
    ensures n == |txs| <==> forall i :: 0 <= i < |txs| ==> txs[i].churnRisk == HighChurnRisk
  {
    if |txs| == 0 then 0
    else
      var rest := ChurnCount(txs[1..]);
      assert forall i :: 1 <= i < |txs| ==> txs[i] == txs[1..][i - 1];
      (if txs[0].churnRisk == HighChurnRisk then 1 else 0) + rest
  }

  /** The churn count is the number of times "High" occurs in the churn-risk column. */
  lemma {:induction false} ChurnCountIsHighRows(txs: seq<Transaction>)
    ensures ChurnCount(txs) == multiset(ChurnRisks(txs))[HighChurnRisk]
  {
    if |txs| == 0 {
      assert ChurnRisks(txs) == [];
    } else {
      ChurnCountIsHighRows(txs[1..]);
      assert ChurnRisks(txs) == [txs[0].churnRisk] + ChurnRisks(txs[1..]);
    }
  }
}

=== FILE: business_rules.dfy ===
/** The signal detector: four threshold rules over the transaction table, emitted
    in a fixed order (all revenue drops by ascending week, then low margin, then
    high churn, then the always-present regional signal). */
module BusinessRules {
  import opened Results
  import opened Floats
  import opened Records
  import opened Aggregates
  import opened Leaders

  /** Positions in the rolling window, the current week included. */
  const Window: nat := 4
  /** A week whose change against its baseline is below this ratio is a drop. */
  const DropThreshold: real := -0.15
  /** A drop whose change is below this ratio is HIGH severity. */
  const SevereDropThreshold: real := -0.25
  /** A mean profit margin below this ratio is a low-margin signal. */
  const MarginThreshold: real := 0.25
  /** More high-churn rows than this is a high-churn signal. */
  const ChurnThreshold: nat := 500
  const BaselineLabel := "4-week average"

  /** `idxmin` of the regional profit table raises when the table has no rows. */
  datatype DetectError = EmptyRegionProfit

  /** The 4-position rolling mean of the weekly series at position `i`: the mean of
      the revenue at positions i-3 .. i, or missing (None) for the first three. */
  function Baseline(revs: seq<real>, i: nat): (b: Option<real>)
    requires i < |revs|
    ensures b.Some? <==> i >= Window - 1
    ensures b.Some? ==> b.value * Window as real == revs[i - 3] + revs[i - 2] + revs[i - 1] + revs[i]
  {
    if i < Window - 1 then None
    else Some((revs[i - 3] + revs[i - 2] + revs[i - 1] + revs[i]) / Window as real)
  }

  /** A baseline lies between the smallest and the largest revenue of its window. */
  lemma {:induction false} BaselineWithinWindow(revs: seq<real>, i: nat, lo: real, hi: real)
    requires 3 <= i < |revs|
    requires forall j :: i - 3 <= j <= i ==> lo <= revs[j] <= hi
    ensures lo <= Baseline(revs, i).value <= hi
  {
  }

  /** The change of week `i` against its baseline, as a ratio of the baseline. */
  function Change(revs: seq<real>, i: nat): (c: Ext)
    requires i < |revs|
    ensures i < Window - 1 ==> c == NaN
    ensures i >= Window - 1 && Baseline(revs, i).value != 0.0 ==>
      c.Finite? && c.value * Baseline(revs, i).value == revs[i] - Baseline(revs, i).value
  {
    match Baseline(revs, i)
    case None => NaN
    case Some(m) => Div(revs[i] - m, m)
  }

  /** A week fires the drop rule when its change is a number below -15%. */
  predicate Fires(revs: seq<real>, i: nat)
    requires i < |revs|
  {
    Below(Change(revs, i), DropThreshold)
  }

  function DropSeverity(c: Ext): (sev: Severity)
    ensures sev == High <==> Below(c, SevereDropThreshold)
  {
    if Below(c, SevereDropThreshold) then High else Medium
  }

  /** The drop rule in plain terms: from the fourth position on, a week drops when its
      revenue is under 85% of a positive baseline (over 85% of a negative one), or is
      negative against a zero baseline. */
  lemma {:induction false} DropRuleCharacterized(revs: seq<real>, i: nat)
    requires i < |revs|
    ensures i < Window - 1 ==> !Fires(revs, i)
    ensures i >= Window - 1 ==>
      var m := Baseline(revs, i).value;
      Fires(revs, i) <==>
        || (m > 0.0 && revs[i] < 0.85 * m)
        || (m < 0.0 && revs[i] > 0.85 * m)
        || (m == 0.0 && revs[i] < 0.0)
  {
    if i >= Window - 1 {
      var m := Baseline(revs, i).value;
      if m > 0.0 {
        BelowDivPositive(revs[i] - m, m, DropThreshold);
      } else if m < 0.0 {
        BelowDivNegative(revs[i] - m, m, DropThreshold);
      }
    }
  }

  /** The severity rule in plain terms: a drop is HIGH when the week's revenue is under
      75% of a positive baseline (over 75% of a negative one), or negative against a
      zero baseline. */
  lemma {:induction false} SevereRuleCharacterized(revs: seq<real>, i: nat)
    requires Window - 1 <= i < |revs|
    ensures var m := Baseline(revs, i).value;
      DropSeverity(Change(revs, i)) == High <==>
        || (m > 0.0 && revs[i] < 0.75 * m)
        || (m < 0.0 && revs[i] > 0.75 * m)
        || (m == 0.0 && revs[i] < 0.0)
  {
    var m := Baseline(revs, i).value;
    if m > 0.0 {
      BelowDivPositive(revs[i] - m, m, SevereDropThreshold);
    } else if m < 0.0 {
      BelowDivNegative(revs[i] - m, m, SevereDropThreshold);
    }
  }

  /** With non-negative revenue a zero baseline is 0/0, which is NaN and never a drop. */
  lemma {:induction false} ZeroBaselineNeverFires(revs: seq<real>, i: nat)
    requires Window - 1 <= i < |revs|
    requires forall j :: i - 3 <= j <= i ==> revs[j] >= 0.0
    requires Baseline(revs, i) == Some(0.0)
    ensures Change(revs, i) == NaN
    ensures !Fires(revs, i)
  {
  }

  /** Weekly revenue 1000, 1000, 1000, 1000, 600: the window of the fifth week includes
      that week, so its baseline is 900 (not 1000) and the change is -1/3, a HIGH drop. */
  lemma {:induction false} FifthWeekExample()
    ensures Baseline([1000.0, 1000.0, 1000.0, 1000.0, 600.0], 4) == Some(900.0)
    ensures Change([1000.0, 1000.0, 1000.0, 1000.0, 600.0], 4) == Finite(-1.0 / 3.0)
    ensures Fires([1000.0, 1000.0, 1000.0, 1000.0, 600.0], 4)
    ensures DropSeverity(Change([1000.0, 1000.0, 1000.0, 1000.0, 600.0], 4)) == High
  {
  }

  /** Every listed week occurs in the rows. */
  predicate Covers(txs: seq<Transaction>, ws: seq<int>) {
    forall i :: 0 <= i < |ws| ==> HasWeek(txs, ws[i])
  }

  /** The revenue-drop signal for position `i` of the weekly series. */
  function DropSignal(txs: seq<Transaction>, ws: seq<int>, revs: seq<real>, i: nat): (s: Signal)
    requires |revs| == |ws| && i < |ws| && Covers(txs, ws)
    ensures s.RevenueDrop? && s.week == ws[i] && s.baseline == BaselineLabel
    ensures s.severity == High <==> Below(Change(revs, i), SevereDropThreshold)
    ensures Below(s.changePct, 0.0) <==> Below(Change(revs, i), 0.0)
  {
    var c := Change(revs, i);
    RevenueDrop(ws[i], Scale(c, 100.0), BaselineLabel, DropSeverity(c), TopDriver(txs, ws[i]))
  }

  /** The percentage a drop signal reports is its week's change times 100: it is below
      `t * 100` exactly when the change is below `t`, for every threshold `t`. */
  lemma {:induction false} DropSignalPercent(txs: seq<Transaction>, ws: seq<int>, revs: seq<real>, i: nat, t: real)
    requires |revs| == |ws| && i < |ws| && Covers(txs, ws)
    ensures Below(DropSignal(txs, ws, revs, i).changePct, t * 100.0) <==> Below(Change(revs, i), t)
  {
    ScaleKeepsThresholds(Change(revs, i), 100.0, t);
  }

  /** The driver a drop signal names is the top (product, region) group of its week. */
  lemma {:induction false} DropDriverIsTop(txs: seq<Transaction>, ws: seq<int>, revs: seq<real>, i: nat)
    requires |revs| == |ws| && i < |ws| && Covers(txs, ws)
    ensures IsTopDriver(txs, ws[i], DropSignal(txs, ws, revs, i).drivers)
  {
    TopDriverCharacterized(txs, ws[i], TopDriver(txs, ws[i]));
  }

  /** The positions among the first `n` of the weekly series whose change fires, ascending:
      the iterations of the Python detector's loop that append a signal. */
  function FiringPositions(revs: seq<real>, n: nat): (ps: seq<nat>)
    requires n <= |revs|
    ensures forall j :: 0 <= j < |ps| ==> ps[j] < n && Fires(revs, ps[j])
    ensures forall p: nat :: p < n && Fires(revs, p) ==> p in ps
    ensures forall j, k :: 0 <= j < k < |ps| ==> ps[j] < ps[k]
  {
    if n == 0 then []
    else FiringPositions(revs, n - 1) + (if Fires(revs, n - 1) then [n - 1] else [])
  }

  /** All revenue-drop signals of the table, in ascending week order. */
  function RevenueDropSignals(txs: seq<Transaction>): (ds: seq<Signal>)
    ensures forall j :: 0 <= j < |ds| ==> ds[j].RevenueDrop?
  {
    var ws := Weeks(txs);
    var revs := RevenueSeries(txs, ws);
    var ps := FiringPositions(revs, |ws|);
    seq(|ps|, j requires 0 <= j < |ps| => DropSignal(txs, ws, revs, ps[j]))
  }

  function MarginSignals(txs: seq<Transaction>): seq<Signal>
    requires |txs| > 0
  {
    var avg := AvgMargin(txs);
    if avg < MarginThreshold then [LowMargin(avg * 100.0, Medium)] else []
  }

  function ChurnSignals(txs: seq<Transaction>): seq<Signal> {
    var count := ChurnCount(txs);
    if count > ChurnThreshold then [HighChurn(count, High)] else []
  }

  function RegionalSignal(txs: seq<Transaction>): Signal
    requires |txs| > 0
  {
    RegionalUnderperformance(WorstRegion(txs), Medium)
  }

  /** `detect_business_signals` over an explicit table. An empty table fails, as
      pandas' `idxmin` does on an empty grouping. */
  function Detect(txs: seq<Transaction>): (r: Result<seq<Signal>, DetectError>)
    ensures r.Failure? <==> |txs| == 0
    ensures r.Success? ==> |r.value| > 0
  {
    if |txs| == 0 then Failure(EmptyRegionProfit)
    else Success(RevenueDropSignals(txs) + MarginSignals(txs) + ChurnSignals(txs) + [RegionalSignal(txs)])
  }

  /** Where the detector's output places the parts of each rule. */
  lemma {:induction false} DetectLayout(txs: seq<Transaction>)
    requires |txs| > 0
    ensures var out := Detect(txs).value;
      var ds := RevenueDropSignals(txs);
      var ms := MarginSignals(txs);
      var cs := ChurnSignals(txs);
      && |out| == |ds| + |ms| + |cs| + 1
      && (forall j :: 0 <= j < |ds| ==> out[j] == ds[j])
      && (forall j :: 0 <= j < |ms| ==> out[|ds| + j] == ms[j])
      && (forall j :: 0 <= j < |cs| ==> out[|ds| + |ms| + j] == cs[j])
      && out[|out| - 1] == RegionalSignal(txs)
  {
  }

  /** Where each kind sits in the detector's output. */
  function EmitRank(k: Kind): nat {
    match k
    case RevenueDropKind => 0
    case LowMarginKind => 1
    case HighChurnKind => 2
    case RegionalKind => 3
  }

  /** The detector emits its kinds in rule order: drops, low margin, high churn, regional. */
  lemma {:induction false} DetectOrder(txs: seq<Transaction>)
    requires |txs| > 0
    ensures var out := Detect(txs).value;
      forall j, k :: 0 <= j < k < |out| ==> EmitRank(KindOf(out[j])) <= EmitRank(KindOf(out[k]))
  {
    DetectLayout(txs);
    var out := Detect(txs).value;
    var ds := RevenueDropSignals(txs);
    var ms := MarginSignals(txs);
    var cs := ChurnSignals(txs);
    forall j | 0 <= j < |out|
      ensures j < |ds| ==> EmitRank(KindOf(out[j])) == 0
      ensures |ds| <= j < |ds| + |ms| ==> EmitRank(KindOf(out[j])) == 1
      ensures |ds| + |ms| <= j < |ds| + |ms| + |cs| ==> EmitRank(KindOf(out[j])) == 2
      ensures j == |out| - 1 ==> EmitRank(KindOf(out[j])) == 3
    {
      if j < |ds| {
        assert out[j] == ds[j];
      } else if j < |ds| + |ms| {
        assert out[j] == ms[j - |ds|];
      } else if j < |ds| + |ms| + |cs| {
        assert out[j] == cs[j - |ds| - |ms|];
      }
    }
  }

  /** Each drop signal of the output is the drop signal of a firing position, in
      the order of the positions. */
  lemma {:induction false} DropPositions(txs: seq<Transaction>)
    requires |txs| > 0
    ensures var out := Detect(txs).value;
      var ws := Weeks(txs);
      var revs := RevenueSeries(txs, ws);
      var ps := FiringPositions(revs, |ws|);
      && |ps| <= |out|
      && (forall j :: 0 <= j < |ps| ==> ps[j] < |ws| && out[j] == DropSignal(txs, ws, revs, ps[j]))
      && (forall j :: 0 <= j < |out| && out[j].RevenueDrop? ==> j < |ps|)
  {
    var ws := Weeks(txs);
    var revs := RevenueSeries(txs, ws);
    var ps := FiringPositions(revs, |ws|);
    var ds := RevenueDropSignals(txs);
    var rest := MarginSignals(txs) + ChurnSignals(txs) + [RegionalSignal(txs)];
    assert Detect(txs).value == ds + rest;
    NoDropsAfterDrops(txs);
    DropsLead(ds, rest);
  }

  /** The signals after the drop phase are not drops. */
  lemma {:induction false} NoDropsAfterDrops(txs: seq<Transaction>)
    requires |txs| > 0
    ensures var rest := MarginSignals(txs) + ChurnSignals(txs) + [RegionalSignal(txs)];
      forall j :: 0 <= j < |rest| ==> !rest[j].RevenueDrop?
  {
  }

  /** In a list of drops followed by non-drops, the drops keep their places and
      nothing after them is a drop. */
  lemma {:induction false} DropsLead(ds: seq<Signal>, rest: seq<Signal>)
    requires forall j :: 0 <= j < |ds| ==> ds[j].RevenueDrop?
    requires forall j :: 0 <= j < |rest| ==> !rest[j].RevenueDrop?
    ensures forall j :: 0 <= j < |ds| ==> (ds + rest)[j] == ds[j]
    ensures forall j :: 0 <= j < |ds + rest| && (ds + rest)[j].RevenueDrop? ==> j < |ds|
  {
    forall j | |ds| <= j < |ds + rest|
      ensures !(ds + rest)[j].RevenueDrop?
    {
      assert (ds + rest)[j] == rest[j - |ds|];
    }
  }

  /** Every drop signal names a week that occurs in the table. */
  lemma {:induction false} DetectDropWeeksOccur(txs: seq<Transaction>)
    requires |txs| > 0
    ensures var out := Detect(txs).value;
      forall j :: 0 <= j < |out| && out[j].RevenueDrop? ==> out[j].week in Weeks(txs)
  {
    DropPositions(txs);
    var ws := Weeks(txs);
    var revs := RevenueSeries(txs, ws);
    var ps := FiringPositions(revs, |ws|);
    var out := Detect(txs).value;
    forall j | 0 <= j < |out| && out[j].RevenueDrop?
      ensures out[j].week in ws
    {
      assert out[j].week == ws[ps[j]];
    }
  }

  /** Over strictly ascending weeks, a drop signal that names the week at position `i`
      is that week's drop signal, and one names it exactly when that week fires. */
  lemma {:induction false} DropsByWeek(txs: seq<Transaction>, ws: seq<int>, revs: seq<real>, ps: seq<nat>, out: seq<Signal>, i: nat)
    requires |revs| == |ws| && i < |ws| && Covers(txs, ws) && Increasing(ws)
    requires forall j :: 0 <= j < |ps| ==> ps[j] < |ws| && Fires(revs, ps[j])
    requires forall p: nat :: p < |ws| && Fires(revs, p) ==> p in ps
    requires |ps| <= |out|
    requires forall j :: 0 <= j < |ps| ==> out[j] == DropSignal(txs, ws, revs, ps[j])
    requires forall j :: 0 <= j < |out| && out[j].RevenueDrop? ==> j < |ps|
    ensures forall j :: 0 <= j < |out| && out[j].RevenueDrop? && out[j].week == ws[i] ==>
      out[j] == DropSignal(txs, ws, revs, i)
    ensures (exists j :: 0 <= j < |out| && out[j].RevenueDrop? && out[j].week == ws[i]) <==> Fires(revs, i)
  {
    forall j | 0 <= j < |out| && out[j].RevenueDrop? && out[j].week == ws[i]
      ensures ps[j] == i && out[j] == DropSignal(txs, ws, revs, i)
    {
      assert out[j] == DropSignal(txs, ws, revs, ps[j]);
      assert ws[ps[j]] == ws[i];
    }
    if Fires(revs, i) {
      var j :| 0 <= j < |ps| && ps[j] == i;
      assert out[j] == DropSignal(txs, ws, revs, i);
    }
  }

  /** The weeks of a table cover it. */
  lemma {:induction false} WeeksCover(txs: seq<Transaction>)
    ensures Covers(txs, Weeks(txs))
  {
    var ws := Weeks(txs);
    forall i | 0 <= i < |ws|
      ensures HasWeek(txs, ws[i])
    {
      assert ws[i] in ws;
    }
  }

  /** Every drop signal names a week of the table, and for each week of the table a
      drop signal names it exactly when that week's change is below -15%, and then it
      is that week's drop signal. */
  lemma {:induction false} DetectDrops(txs: seq<Transaction>, i: nat)
    requires |txs| > 0
    requires i < |Weeks(txs)|
    ensures var out := Detect(txs).value;
      var ws := Weeks(txs);
      var revs := RevenueSeries(txs, ws);
      && (forall j :: 0 <= j < |out| && out[j].RevenueDrop? ==> out[j].week in ws)
      && ((exists j :: 0 <= j < |out| && out[j].RevenueDrop? && out[j].week == ws[i]) <==> Fires(revs, i))
      && (forall j :: 0 <= j < |out| && out[j].RevenueDrop? && out[j].week == ws[i] ==>
            out[j] == DropSignal(txs, ws, revs, i))
  {
    DetectDropWeeksOccur(txs);
    DropsAtWeek(txs, i);
  }

  /** `DropsByWeek` applied to the detector's output. */
  lemma {:induction false} DropsAtWeek(txs: seq<Transaction>, i: nat)
    requires |txs| > 0
    requires i < |Weeks(txs)|
    ensures var out := Detect(txs).value;
      var ws := Weeks(txs);
      var revs := RevenueSeries(txs, ws);
      && (forall j :: 0 <= j < |out| && out[j].RevenueDrop? && out[j].week == ws[i] ==>
            out[j] == DropSignal(txs, ws, revs, i))
      && ((exists j :: 0 <= j < |out| && out[j].RevenueDrop? && out[j].week == ws[i]) <==> Fires(revs, i))
  {
    DropPositions(txs);
    WeeksCover(txs);
    var ws := Weeks(txs);
    var revs := RevenueSeries(txs, ws);
    DropsByWeek(txs, ws, revs, FiringPositions(revs, |ws|), Detect(txs).value, i);
  }

  /** Drop signals come in strictly ascending week order, so at most one per week. */
  lemma {:induction false} DetectDropWeeksAscend(txs: seq<Transaction>)
    requires |txs| > 0
    ensures var out := Detect(txs).value;
      forall j, k :: 0 <= j < k < |out| && out[j].RevenueDrop? && out[k].RevenueDrop? ==>
        out[j].week < out[k].week
  {
    DropPositions(txs);
  }

  /** In a list whose only signals of kind `k` form a block of at most one, a signal
      of kind `k` is present exactly when the block is non-empty, and then it is the
      block's signal, at the block's place. */
  lemma {:induction false} KindInBlock(pre: seq<Signal>, block: seq<Signal>, post: seq<Signal>, k: Kind)
    requires forall j :: 0 <= j < |pre| ==> KindOf(pre[j]) != k
    requires forall j :: 0 <= j < |post| ==> KindOf(post[j]) != k
    requires |block| <= 1 && forall j :: 0 <= j < |block| ==> KindOf(block[j]) == k
    ensures var l := pre + block + post;
      && (HasKind(l, k) <==> |block| == 1)
      && (forall j :: 0 <= j < |l| && KindOf(l[j]) == k ==> j == |pre| && l[j] == block[0])
  {
    var l := pre + block + post;
    forall j | 0 <= j < |l| && j != |pre|
      ensures KindOf(l[j]) != k
    {
      if j < |pre| {
        assert l[j] == pre[j];
      } else if j < |pre| + |block| {
        assert false;
      } else {
        assert l[j] == post[j - |pre| - |block|];
      }
    }
    if |block| == 1 {
      assert l[|pre|] == block[0];
    }
  }

  /** A low-margin signal is present exactly when the mean margin is below 25%; there is
      at most one, it is MEDIUM and reports the mean margin as a percentage. */
  lemma {:induction false} DetectLowMargin(txs: seq<Transaction>)
    requires |txs| > 0
    ensures var out := Detect(txs).value;
      && (HasKind(out, LowMarginKind) <==> AvgMargin(txs) < MarginThreshold)
      && (forall j, k :: 0 <= j < |out| && 0 <= k < |out| && out[j].LowMargin? && out[k].LowMargin? ==> j == k)
      && (forall j :: 0 <= j < |out| && out[j].LowMargin? ==>
            out[j].severity == Medium && out[j].avgMargin == AvgMargin(txs) * 100.0)
  {
    var ds := RevenueDropSignals(txs);
    var ms := MarginSignals(txs);
    var rest := ChurnSignals(txs) + [RegionalSignal(txs)];
    assert Detect(txs).value == ds + ms + rest;
    KindInBlock(ds, ms, rest, LowMarginKind);
  }


  /** A high-churn signal is present exactly when more than 500 rows have churn risk
      "High"; there is at most one, it is HIGH and carries that number. */
  lemma {:induction false} DetectHighChurn(txs: seq<Transaction>)
    requires |txs| > 0
    ensures var out := Detect(txs).value;
      && (HasKind(out, HighChurnKind) <==> ChurnCount(txs) > ChurnThreshold)
      && (forall j, k :: 0 <= j < |out| && 0 <= k < |out| && out[j].HighChurn? && out[k].HighChurn? ==> j == k)
      && (forall j :: 0 <= j < |out| && out[j].HighChurn? ==>
            out[j].severity == High && out[j].count == ChurnCount(txs))
  {
    var pre := RevenueDropSignals(txs) + MarginSignals(txs);
    var cs := ChurnSignals(txs);
    var rest := [RegionalSignal(txs)];
    assert Detect(txs).value == pre + cs + rest;
    KindInBlock(pre, cs, rest, HighChurnKind);
  }


  /** The regional signal is always the last signal and the only one of its kind; it is
      MEDIUM and names the region of least total profit (smallest name on ties). */
  lemma {:induction false} DetectRegionalLast(txs: seq<Transaction>)
    requires |txs| > 0
    ensures var out := Detect(txs).value;
      && out[|out| - 1].RegionalUnderperformance?
      && out[|out| - 1].severity == Medium
      && IsWorstRegion(txs, out[|out| - 1].region)
      && (forall j :: 0 <= j < |out| - 1 ==> !out[j].RegionalUnderperformance?)
  {
    DetectLayout(txs);
    var out := Detect(txs).value;
    var ds := RevenueDropSignals(txs);
    var ms := MarginSignals(txs);
    var cs := ChurnSignals(txs);
    forall j | 0 <= j < |out| - 1
      ensures !out[j].RegionalUnderperformance?
    {
      if j < |ds| {
        assert out[j] == ds[j];
      } else if j < |ds| + |ms| {
        assert out[j] == ms[j - |ds|];
      } else {
        assert out[j] == cs[j - |ds| - |ms|];
      }
    }
    WorstRegionCharacterized(txs, WorstRegion(txs));
  }
}

=== FILE: floats.dfy ===
/** The outcomes of a floating-point division that the drop rule can observe,
    over exact reals: dividing by zero gives an infinity or NaN instead of an
    error, and every comparison with NaN is false. */
module Floats {

  datatype Ext = Finite(value: real) | PosInf | NegInf | NaN

  /** `a / b` as a pandas Series division: a zero divisor yields -inf, +inf or NaN
      according to the sign of the dividend (a positive zero divisor is assumed). */
  function Div(a: real, b: real): (r: Ext)
    ensures r.Finite? <==> b != 0.0
    ensures r.Finite? ==> r.value * b == a
    ensures r == NegInf <==> b == 0.0 && a < 0.0
    ensures r == NaN <==> b == 0.0 && a == 0.0
  {
    if b != 0.0 then Finite(a / b)
    else if a < 0.0 then NegInf
    else if a > 0.0 then PosInf
    else NaN
  }

  /** The comparison `x < t` of a float with a real threshold. */
  predicate Below(x: Ext, t: real) {
    match x
    case Finite(v) => v < t
    case NegInf => true
    case PosInf => false
    case NaN => false
  }

  /** `x * k` for a positive factor `k`: the infinities and NaN are left as they are. */
  function Scale(x: Ext, k: real): (r: Ext)
    requires k > 0.0
    ensures Below(r, 0.0) <==> Below(x, 0.0)
    ensures r.Finite? <==> x.Finite?
    ensures !x.Finite? ==> r == x
  {
    match x
    case Finite(v) =>
      assert v * k < 0.0 <==> v < 0.0 by {
        if v < 0.0 {
          assert (0.0 - v) * k > 0.0;
        } else {
          assert v * k >= 0.0;
        }
      }
      Finite(v * k)
    case _ => x
  }

  /** Scaling by `k` scales every threshold with the value: the scaled value is below
      `t * k` exactly when the value is below `t`. */
  lemma {:induction false} ScaleKeepsThresholds(x: Ext, k: real, t: real)
    requires k > 0.0
    ensures Below(Scale(x, k), t * k) <==> Below(x, t)
  {
    if x.Finite? {
      var v := x.value;
      if v < t {
        assert (t - v) * k > 0.0;
      } else {
        assert (v - t) * k >= 0.0;
      }
    }
  }

  function Neg(x: Ext): Ext {
    match x
    case Finite(v) => Finite(-v)
    case PosInf => NegInf
    case NegInf => PosInf
    case NaN => NaN
  }

  /** `abs(x)`: a value not below 0 is its own absolute value, and a value below 0
      has its negation as absolute value. */
  function Abs(x: Ext): (r: Ext)
    ensures !Below(r, 0.0)
    ensures r.Finite? <==> x.Finite?
    ensures !Below(x, 0.0) ==> r == x
    ensures Below(x, 0.0) ==> r == Neg(x)
  {
    match x
    case Finite(v) => Finite(if v < 0.0 then -v else v)
    case NegInf => PosInf
    case PosInf => PosInf
    case NaN => NaN
  }

  /** The absolute value forgets the sign. */
  lemma {:induction false} AbsIgnoresSign(x: Ext)
    ensures Abs(Neg(x)) == Abs(x)
  {
  }

  /** Below a negative threshold after dividing by a positive number is the same as
      the dividend lying below the threshold times the divisor. */
  lemma {:induction false} BelowDivPositive(a: real, b: real, t: real)
    requires b > 0.0
    ensures Below(Div(a, b), t) <==> a < t * b
  {
    var q := a / b;
    assert q * b == a;
    if q < t {
      assert q * b < t * b;
    } else {
      assert q * b >= t * b;
    }
  }

  /** Dividing by a negative number flips the comparison. */
  lemma {:induction false} BelowDivNegative(a: real, b: real, t: real)
    requires b < 0.0
    ensures Below(Div(a, b), t) <==> a > t * b
  {
    var q := a / b;
    assert q * b == a;
    if q < t {
      assert q * b > t * b;
    } else {
      assert q * b <= t * b;
    }
  }
}

=== FILE: health.dfy ===
/** The business health status shown by the dashboard, derived only from the
    severities of the detected signals, and the per-signal severity icon. */
module Health {
  import opened Floats
  import opened Records
  import opened Aggregates
  import opened BusinessRules

  datatype HealthStatus = NeedsAttention | Monitor | Stable

  /** Any HIGH signal needs attention; otherwise any MEDIUM signal means monitor;
      otherwise the business is stable. */
  function HealthOf(signals: seq<Signal>): HealthStatus {
    if HasSeverity(signals, High) then NeedsAttention
    else if HasSeverity(signals, Medium) then Monitor
    else Stable
  }

  /** The status text the dashboard compares against. */
  function StatusLabel(h: HealthStatus): (text: string)
    ensures text in {"Needs Attention", "Monitor", "Stable"}
    ensures text == "Needs Attention" <==> h == NeedsAttention
    ensures text == "Monitor" <==> h == Monitor
    ensures text == "Stable" <==> h == Stable
  {
    match h
    case NeedsAttention => "Needs Attention"
    case Monitor => "Monitor"
    case Stable => "Stable"
  }

  /** Distinct statuses read differently. */
  lemma {:induction false} StatusLabelsDistinct(g: HealthStatus, h: HealthStatus)
    requires g != h
    ensures StatusLabel(g) != StatusLabel(h)
  {
  }

  /** The three statuses in terms of the set of severities present: any HIGH needs
      attention, MEDIUM without HIGH is monitor, and no severity at all is stable. */
  lemma {:induction false} HealthBySeverities(signals: seq<Signal>)
    ensures HealthOf(signals) == NeedsAttention <==> High in Severities(signals)
    ensures HealthOf(signals) == Monitor <==> High !in Severities(signals) && Medium in Severities(signals)
    ensures HealthOf(signals) == Stable <==> Severities(signals) == {}
  {
    if Severities(signals) != {} {
      var sev :| sev in Severities(signals);
      assert sev == High || sev == Medium;
    }
  }

  /** The status text shown for a signal list: "Needs Attention" when some signal is
      HIGH, "Monitor" when some is MEDIUM and none is HIGH, "Stable" when there is no
      signal at all. */
  lemma {:induction false} StatusLabelOfSignals(signals: seq<Signal>)
    ensures StatusLabel(HealthOf(signals)) == "Needs Attention" <==> HasSeverity(signals, High)
    ensures StatusLabel(HealthOf(signals)) == "Monitor"
            <==> !HasSeverity(signals, High) && HasSeverity(signals, Medium)
    ensures StatusLabel(HealthOf(signals)) == "Stable" <==> |signals| == 0
  {
    StableIffNoSignals(signals);
  }

  /** Every signal carries a severity, so only the empty list is stable. */
  lemma {:induction false} StableIffNoSignals(signals: seq<Signal>)
    ensures HealthOf(signals) == Stable <==> |signals| == 0
  {
    if |signals| > 0 {
      assert signals[0].severity == High || signals[0].severity == Medium;
    }
  }

  /** Health sees only which severities occur: two lists with the same severities
      have the same health, whatever their kinds, fields or order. */
  lemma {:induction false} HealthDependsOnlyOnSeverities(a: seq<Signal>, b: seq<Signal>)
    requires Severities(a) == Severities(b)
    ensures HealthOf(a) == HealthOf(b)
  {
    assert HasSeverity(a, High) <==> High in Severities(a);
    assert HasSeverity(a, Medium) <==> Medium in Severities(a);
  }

  /** Reordering the signals does not change the health. */
  lemma {:induction false} HealthIgnoresOrder(a: seq<Signal>, b: seq<Signal>)
    requires multiset(a) == multiset(b)
    ensures HealthOf(a) == HealthOf(b)
  {
    forall sev | HasSeverity(a, sev)
      ensures HasSeverity(b, sev)
    {
      var i :| 0 <= i < |a| && a[i].severity == sev;
      assert a[i] in multiset(b);
      var j :| 0 <= j < |b| && b[j] == a[i];
    }
    forall sev | HasSeverity(b, sev)
      ensures HasSeverity(a, sev)
    {
      var i :| 0 <= i < |b| && b[i].severity == sev;
      assert b[i] in multiset(a);
      var j :| 0 <= j < |a| && a[j] == b[i];
    }
    HealthDependsOnlyOnSeverities(a, b);
  }

  /** On any table the detector accepts, the always-present regional signal keeps the
      health from being stable. */
  lemma {:induction false} DetectedHealthNeverStable(txs: seq<Transaction>)
    requires |txs| > 0
    ensures HealthOf(Detect(txs).value) != Stable
  {
    StableIffNoSignals(Detect(txs).value);
  }

  /** Some week's change against its baseline is below -25%, or more than 500 rows are
      at high churn risk: the conditions under which the detector emits a HIGH signal. */
  ghost predicate SevereData(txs: seq<Transaction>) {
    var ws := Weeks(txs);
    var revs := RevenueSeries(txs, ws);
    || ChurnCount(txs) > ChurnThreshold
    || exists i :: 0 <= i < |ws| && Below(Change(revs, i), SevereDropThreshold)
  }

  /** A HIGH drop signal comes from a week whose change is below -25%. */
  lemma {:induction false} HighDropIsSevere(txs: seq<Transaction>, j: nat)
    requires j < |RevenueDropSignals(txs)|
    requires RevenueDropSignals(txs)[j].severity == High
    ensures SevereData(txs)
  {
    var ws := Weeks(txs);
    var revs := RevenueSeries(txs, ws);
    var ps := FiringPositions(revs, |ws|);
    var p := ps[j];
    assert RevenueDropSignals(txs)[j] == DropSignal(txs, ws, revs, p);
    assert 0 <= p < |ws| && Below(Change(revs, p), SevereDropThreshold);
  }

  /** A HIGH signal at position `j` of the output comes from a severe drop or from
      high churn. */
  lemma {:induction false} HighSignalAtIsSevere(txs: seq<Transaction>, j: nat)
    requires |txs| > 0
    requires j < |Detect(txs).value| && Detect(txs).value[j].severity == High
    ensures SevereData(txs)
  {
    var out := Detect(txs).value;
    var ds := RevenueDropSignals(txs);
    var ms := MarginSignals(txs);
    var cs := ChurnSignals(txs);
    DetectLayout(txs);
    assert forall k :: 0 <= k < |ms| ==> ms[k].severity == Medium;
    if j < |ds| {
      assert out[j] == ds[j];
      HighDropIsSevere(txs, j);
    } else if j < |ds| + |ms| {
      assert false;
    } else if j < |ds| + |ms| + |cs| {
      assert out[j] == cs[j - |ds| - |ms|];
    }
  }

  /** A HIGH signal in the output comes from a severe drop or from high churn. */
  lemma {:induction false} HighSignalMeansSevereData(txs: seq<Transaction>)
    requires |txs| > 0
    ensures HasSeverity(Detect(txs).value, High) ==> SevereData(txs)
  {
    var out := Detect(txs).value;
    if j :| 0 <= j < |out| && out[j].severity == High {
      HighSignalAtIsSevere(txs, j);
    }
  }

  /** More than 500 high-churn rows put a HIGH churn signal in the output. */
  lemma {:induction false} HighChurnMeansHighSignal(txs: seq<Transaction>)
    requires |txs| > 0
    requires ChurnCount(txs) > ChurnThreshold
    ensures HasSeverity(Detect(txs).value, High)
  {
    var out := Detect(txs).value;
    var ds := RevenueDropSignals(txs);
    var ms := MarginSignals(txs);
    var cs := ChurnSignals(txs);
    assert cs == [HighChurn(ChurnCount(txs), High)];
    DetectLayout(txs);
    assert out[|ds| + |ms|].severity == High;
  }

  /** A week whose change is below -25% puts a HIGH drop signal in the output. */
  lemma {:induction false} SevereDropMeansHighSignal(txs: seq<Transaction>, i: int)
    requires |txs| > 0
    requires 0 <= i < |Weeks(txs)|
    requires Below(Change(RevenueSeries(txs, Weeks(txs)), i), SevereDropThreshold)
    ensures HasSeverity(Detect(txs).value, High)
  {
    var ws := Weeks(txs);
    var revs := RevenueSeries(txs, ws);
    var ps := FiringPositions(revs, |ws|);
    var out := Detect(txs).value;
    DropPositions(txs);
    assert Fires(revs, i);
    assert i in ps;
    var j :| 0 <= j < |ps| && ps[j] == i;
    assert out[j] == DropSignal(txs, ws, revs, i);
  }

  /** A severe drop or high churn always puts a HIGH signal in the output. */
  lemma {:induction false} SevereDataMeansHighSignal(txs: seq<Transaction>)
    requires |txs| > 0
    requires SevereData(txs)
    ensures HasSeverity(Detect(txs).value, High)
  {
    if ChurnCount(txs) > ChurnThreshold {
      HighChurnMeansHighSignal(txs);
    } else {
      var ws := Weeks(txs);
      var i :| 0 <= i < |ws| && Below(Change(RevenueSeries(txs, ws), i), SevereDropThreshold);
      SevereDropMeansHighSignal(txs, i);
    }
  }

  /** The health of a table in terms of its data: it needs attention exactly when some
      week's change is below -25% or more than 500 rows are at high churn risk, and is
      "Monitor" otherwise, never "Stable". */
  lemma {:induction false} DetectedHealth(txs: seq<Transaction>)
    requires |txs| > 0
    ensures HealthOf(Detect(txs).value) == NeedsAttention <==> SevereData(txs)
    ensures HealthOf(Detect(txs).value) == Monitor <==> !SevereData(txs)
  {
    var out := Detect(txs).value;
    DetectRegionalLast(txs);
    assert out[|out| - 1].severity == Medium;
    if SevereData(txs) {
      SevereDataMeansHighSignal(txs);
    }
    if HasSeverity(out, High) {
      HighSignalMeansSevereData(txs);
    }
  }

  const RedCircle := "\U{1F534}"
  const OrangeCircle := "\U{1F7E0}"

  /** The icon shown beside a signal: red for HIGH, orange otherwise. */
  function Icon(sev: Severity): (icon: string)
    ensures icon == RedCircle <==> sev == High
    ensures icon == OrangeCircle <==> sev == Medium
  {
    match sev
    case High => RedCircle
    case Medium => OrangeCircle
  }
}

=== FILE: insights.dfy ===
/** The narrative renderer: a deterministic template expansion of a signal list
    into a headline, one observation per signal and one recommendation per kind
    of signal present, joined by newlines. */
module Insights {
  import opened Results
  import opened Floats
  import opened Records
  import opened Health
  import Text

  /** The text for an empty signal list. It is written as two literals so that its
      first character, which tells it apart from every report, is within the
      verifier's reach. */
  const StableSentence := "Business performance is stable "
    + "with no significant risk signals detected."
  const WarningSign := "\U{26A0}\U{FE0F}"
  const HealthPrefix := WarningSign + " Overall Business Health: "
  const AttentionHeadline := HealthPrefix + "Needs Immediate Attention\n"
  const MonitorHeadline := HealthPrefix + "Monitor Closely\n"
  const ObservationsHeader := "Key Observations:"
  const ActionsHeader := "\nRecommended Actions:"

  /** The headline: immediate attention when some signal is HIGH, else monitor closely. */
  function Headline(signals: seq<Signal>): (h: string)
    ensures h == AttentionHeadline <==> HasSeverity(signals, High)
    ensures h == MonitorHeadline <==> !HasSeverity(signals, High)
  {
    assert |AttentionHeadline| != |MonitorHeadline|;
    if HasSeverity(signals, High) then AttentionHeadline else MonitorHeadline
  }

  /** The headline and the dashboard's health status agree on any non-empty list. */
  lemma {:induction false} HeadlineMatchesHealth(signals: seq<Signal>)
    requires |signals| > 0
    ensures Headline(signals) == AttentionHeadline <==> HealthOf(signals) == NeedsAttention
    ensures Headline(signals) == MonitorHeadline <==> HealthOf(signals) == Monitor
  {
    StableIffNoSignals(signals);
  }

  /** How each observation template begins. */
  const DropOpening := "- Revenue declined "
  const ChurnOpening := "- "
  const MarginOpening := "- Average profit margin is "
  const RegionOpening := "- The "

  /** The observation line for one signal, by its kind's template. `num` renders a
      float as the Python renderer prints it after rounding to one decimal. */
  function Observation(s: Signal, num: Ext -> string): string {
    match s
    case RevenueDrop(week, change, baseline, _, drivers) =>
      DropOpening + num(Abs(change)) + "% in Week " + Text.IntText(week)
      + " compared to the " + baseline + ", primarily driven by "
      + drivers.product + " in the " + drivers.region + " region."
    case HighChurn(count, _) =>
      ChurnOpening + Text.IntText(count) + " transactions show high churn risk, "
      + "indicating potential customer retention issues."
    case LowMargin(avgMargin, _) =>
      MarginOpening + num(Finite(avgMargin)) + "%, "
      + "suggesting pricing or cost pressure."
    case RegionalUnderperformance(region, _) =>
      RegionOpening + region + " region is underperforming in total profit."
  }

  /** Reads back which template produced an observation line. */
  function ObservedKind(line: string): Option<Kind> {
    if |line| < 3 || line[0] != '-' || line[1] != ' ' then None
    else if line[2] == 'R' then Some(RevenueDropKind)
    else if line[2] == 'A' then Some(LowMarginKind)
    else if line[2] == 'T' then Some(RegionalKind)
    else if Text.IsDigit(line[2]) then Some(HighChurnKind)
    else None
  }

  /** The first characters of the openings: a dash, a space, then a letter that tells
      the templates apart. */
  lemma {:induction false} OpeningCharacters()
    ensures |DropOpening| >= 3 && DropOpening[..3] == "- R"
    ensures |MarginOpening| >= 3 && MarginOpening[..3] == "- A"
    ensures |RegionOpening| >= 3 && RegionOpening[..3] == "- T"
    ensures ChurnOpening == "- "
  {
  }

  /** A line that starts with `opening` agrees with it on its first three characters. */
  lemma {:induction false} OpeningKept(opening: string, rest: string)
    requires |opening| >= 3
    ensures (opening + rest)[..3] == opening[..3]
  {
  }

  lemma {:induction false} DropObservationKind(week: int, change: Ext, baseline: string, sev: Severity, d: Driver, num: Ext -> string)
    ensures ObservedKind(Observation(RevenueDrop(week, change, baseline, sev, d), num)) == Some(RevenueDropKind)
  {
    var line := Observation(RevenueDrop(week, change, baseline, sev, d), num);
    OpeningCharacters();
    OpeningKept(DropOpening, line[|DropOpening|..]);
    assert line[..3] == "- R";
  }

  lemma {:induction false} ChurnObservationKind(count: nat, sev: Severity, num: Ext -> string)
    ensures ObservedKind(Observation(HighChurn(count, sev), num)) == Some(HighChurnKind)
  {
    var line := Observation(HighChurn(count, sev), num);
    var digits := Text.IntText(count);
    OpeningCharacters();
    assert line[..2] == "- " && line[2] == digits[0];
  }

  lemma {:induction false} MarginObservationKind(avgMargin: real, sev: Severity, num: Ext -> string)
    ensures ObservedKind(Observation(LowMargin(avgMargin, sev), num)) == Some(LowMarginKind)
  {
    var line := Observation(LowMargin(avgMargin, sev), num);
    OpeningCharacters();
    OpeningKept(MarginOpening, line[|MarginOpening|..]);
    assert line[..3] == "- A";
  }

  lemma {:induction false} RegionObservationKind(region: string, sev: Severity, num: Ext -> string)
    ensures ObservedKind(Observation(RegionalUnderperformance(region, sev), num)) == Some(RegionalKind)
  {
    var line := Observation(RegionalUnderperformance(region, sev), num);
    OpeningCharacters();
    OpeningKept(RegionOpening, line[|RegionOpening|..]);
    assert line[..3] == "- T";
  }

  /** Each observation line is recognisably its signal's template: the kind read back
      from the line is the signal's kind. */
  lemma {:induction false} ObservationNamesItsKind(s: Signal, num: Ext -> string)
    ensures ObservedKind(Observation(s, num)) == Some(KindOf(s))
  {
    match s
    case RevenueDrop(week, change, baseline, sev, d) =>
      DropObservationKind(week, change, baseline, sev, d, num);
    case HighChurn(count, sev) =>
      ChurnObservationKind(count, sev, num);
    case LowMargin(avgMargin, sev) =>
      MarginObservationKind(avgMargin, sev, num);
    case RegionalUnderperformance(region, sev) =>
      RegionObservationKind(region, sev, num);
  }

  /** Every signal's observation line reads back as that signal's kind. */
  lemma {:induction false} ObservationsNameKinds(signals: seq<Signal>, num: Ext -> string)
    ensures forall i :: 0 <= i < |signals| ==>
      ObservedKind(Observation(signals[i], num)) == Some(KindOf(signals[i]))
  {
    forall i | 0 <= i < |signals|
      ensures ObservedKind(Observation(signals[i], num)) == Some(KindOf(signals[i]))
    {
      ObservationNamesItsKind(signals[i], num);
    }
  }

  /** `part` occurs in `text` starting at position `i`. */
  predicate OccursAt(text: string, part: string, i: int) {
    0 <= i <= |text| - |part| && text[i..i + |part|] == part
  }

  /** `part` occurs somewhere in `text`. */
  ghost predicate Contains(text: string, part: string) {
    exists i :: OccursAt(text, part, i)
  }

  lemma {:induction false} ContainsAppended(a: string, b: string)
    ensures Contains(a + b, b)
  {
    assert OccursAt(a + b, b, |a|);
  }

  lemma {:induction false} ContainsExtended(a: string, b: string, part: string)
    requires Contains(a, part)
    ensures Contains(a + b, part)
  {
    var i :| OccursAt(a, part, i);
    assert (a + b)[i..i + |part|] == a[i..i + |part|];
    assert OccursAt(a + b, part, i);
  }

  lemma {:induction false} ContainsPrepended(a: string, b: string, part: string)
    requires Contains(b, part)
    ensures Contains(a + b, part)
  {
    var i :| OccursAt(b, part, i);
    assert (a + b)[|a| + i..|a| + i + |part|] == b[i..i + |part|];
    assert OccursAt(a + b, part, |a| + i);
  }

  /** A joined text contains each of its parts. */
  lemma {:induction false} JoinContains(parts: seq<string>, sep: string, k: nat)
    requires k < |parts|
    ensures Contains(Text.Join(parts, sep), parts[k])
    decreases |parts|
  {
    var r := Text.Join(parts, sep);
    if k == 0 {
      assert r[0..|parts[0]|] == parts[0];
      assert OccursAt(r, parts[0], 0);
    } else {
      JoinContains(parts[1..], sep, k - 1);
      ContainsPrepended(parts[0] + sep, Text.Join(parts[1..], sep), parts[k]);
    }
  }

  /** A drop observation cites the size of the drop (without its sign), the week, the
      baseline label and the driving product and region. */
  lemma {:induction false} DropObservationCites(week: int, change: Ext, baseline: string, sev: Severity, d: Driver, num: Ext -> string)
    ensures var line := Observation(RevenueDrop(week, change, baseline, sev, d), num);
      && Contains(line, num(Abs(change)))
      && Contains(line, Text.IntText(week))
      && Contains(line, baseline)
      && Contains(line, d.product)
      && Contains(line, d.region)
      && line == Observation(RevenueDrop(week, Neg(change), baseline, sev, d), num)
  {
    var n := num(Abs(change));
    var w := Text.IntText(week);
    var a1 := DropOpening + n;
    var a2 := a1 + "% in Week ";
    var a3 := a2 + w;
    var a4 := a3 + " compared to the ";
    var a5 := a4 + baseline;
    var a6 := a5 + ", primarily driven by ";
    var a7 := a6 + d.product;
    var a8 := a7 + " in the ";
    var a9 := a8 + d.region;
    var line := a9 + " region.";
    assert line == Observation(RevenueDrop(week, change, baseline, sev, d), num);
    ContainsAppended(DropOpening, n);
    ContainsExtended(a1, "% in Week ", n);
    ContainsExtended(a2, w, n);
    ContainsAppended(a2, w);
    ContainsExtended(a3, " compared to the ", n);
    ContainsExtended(a3, " compared to the ", w);
    ContainsExtended(a4, baseline, n);
    ContainsExtended(a4, baseline, w);
    ContainsAppended(a4, baseline);
    ContainsExtended(a5, ", primarily driven by ", n);
    ContainsExtended(a5, ", primarily driven by ", w);
    ContainsExtended(a5, ", primarily driven by ", baseline);
    ContainsExtended(a6, d.product, n);
    ContainsExtended(a6, d.product, w);
    ContainsExtended(a6, d.product, baseline);
    ContainsAppended(a6, d.product);
    ContainsExtended(a7, " in the ", n);
    ContainsExtended(a7, " in the ", w);
    ContainsExtended(a7, " in the ", baseline);
    ContainsExtended(a7, " in the ", d.product);
    ContainsExtended(a8, d.region, n);
    ContainsExtended(a8, d.region, w);
    ContainsExtended(a8, d.region, baseline);
    ContainsExtended(a8, d.region, d.product);
    ContainsAppended(a8, d.region);
    ContainsExtended(a9, " region.", n);
    ContainsExtended(a9, " region.", w);
    ContainsExtended(a9, " region.", baseline);
    ContainsExtended(a9, " region.", d.product);
    ContainsExtended(a9, " region.", d.region);
    AbsIgnoresSign(change);
  }

  /** A churn observation cites the number of high-churn rows. */
  lemma {:induction false} ChurnObservationCites(count: nat, sev: Severity, num: Ext -> string)
    ensures Contains(Observation(HighChurn(count, sev), num), Text.IntText(count))
  {
    var c := Text.IntText(count);
    var a1 := ChurnOpening + c;
    var a2 := a1 + " transactions show high churn risk, ";
    var line := a2 + "indicating potential customer retention issues.";
    assert line == Observation(HighChurn(count, sev), num);
    ContainsAppended(ChurnOpening, c);
    ContainsExtended(a1, " transactions show high churn risk, ", c);
    ContainsExtended(a2, "indicating potential customer retention issues.", c);
  }

  /** A low-margin observation cites the mean margin as the renderer prints it. */
  lemma {:induction false} MarginObservationCites(avgMargin: real, sev: Severity, num: Ext -> string)
    ensures Contains(Observation(LowMargin(avgMargin, sev), num), num(Finite(avgMargin)))
  {
    var m := num(Finite(avgMargin));
    var a1 := MarginOpening + m;
    var a2 := a1 + "%, ";
    var line := a2 + "suggesting pricing or cost pressure.";
    assert line == Observation(LowMargin(avgMargin, sev), num);
    ContainsAppended(MarginOpening, m);
    ContainsExtended(a1, "%, ", m);
    ContainsExtended(a2, "suggesting pricing or cost pressure.", m);
  }

  /** A regional observation cites the region. */
  lemma {:induction false} RegionObservationCites(region: string, sev: Severity, num: Ext -> string)
    ensures Contains(Observation(RegionalUnderperformance(region, sev), num), region)
  {
    var a1 := RegionOpening + region;
    var line := a1 + " region is underperforming in total profit.";
    assert line == Observation(RegionalUnderperformance(region, sev), num);
    ContainsAppended(RegionOpening, region);
    ContainsExtended(a1, " region is underperforming in total profit.", region);
  }

  /** `line` contains every field the observation of `s` prints. */
  ghost predicate CitesFields(line: string, s: Signal, num: Ext -> string) {
    match s
    case RevenueDrop(week, change, baseline, _, d) =>
      && Contains(line, num(Abs(change)))
      && Contains(line, Text.IntText(week))
      && Contains(line, baseline)
      && Contains(line, d.product)
      && Contains(line, d.region)
    case HighChurn(count, _) => Contains(line, Text.IntText(count))
    case LowMargin(avgMargin, _) => Contains(line, num(Finite(avgMargin)))
    case RegionalUnderperformance(region, _) => Contains(line, region)
  }

  /** Every observation line contains the fields of its signal. */
  lemma {:induction false} ObservationCitesFields(s: Signal, num: Ext -> string)
    ensures CitesFields(Observation(s, num), s, num)
  {
    match s
    case RevenueDrop(week, change, baseline, sev, d) =>
      DropObservationCites(week, change, baseline, sev, d, num);
    case HighChurn(count, sev) =>
      ChurnObservationCites(count, sev, num);
    case LowMargin(avgMargin, sev) =>
      MarginObservationCites(avgMargin, sev, num);
    case RegionalUnderperformance(region, sev) =>
      RegionObservationCites(region, sev, num);
  }

  /** The order of the recommendations: drops, churn, margin, regional. */
  function ActionRank(k: Kind): nat {
    match k
    case RevenueDropKind => 0
    case HighChurnKind => 1
    case LowMarginKind => 2
    case RegionalKind => 3
  }

  function Recommendation(k: Kind): string {
    match k
    case RevenueDropKind => "- Investigate product- and region-level demand drivers."
    case HighChurnKind => "- Launch targeted retention initiatives."
    case LowMarginKind => "- Review pricing and cost structures."
    case RegionalKind => "- Conduct regional performance audits."
  }

  /** Different kinds are recommended in different words. */
  lemma {:induction false} RecommendationInjective(j: Kind, k: Kind)
    requires j != k
    ensures Recommendation(j) != Recommendation(k)
  {
    assert |Recommendation(j)| != |Recommendation(k)|;
  }

  /** The kinds to recommend for: each kind present, once, in recommendation order. */
  function RecommendedKinds(signals: seq<Signal>): (ks: seq<Kind>)
    ensures forall k :: k in ks <==> HasKind(signals, k)
    ensures forall i, j :: 0 <= i < j < |ks| ==> ActionRank(ks[i]) < ActionRank(ks[j])
  {
    (if HasKind(signals, RevenueDropKind) then [RevenueDropKind] else [])
    + (if HasKind(signals, HighChurnKind) then [HighChurnKind] else [])
    + (if HasKind(signals, LowMarginKind) then [LowMarginKind] else [])
    + (if HasKind(signals, RegionalKind) then [RegionalKind] else [])
  }

  /** A duplicate-free list of kinds has as many elements as it has distinct kinds. */
  lemma {:induction false} DistinctCount(ks: seq<Kind>)
    requires forall i, j :: 0 <= i < j < |ks| ==> ks[i] != ks[j]
    ensures |(set k | k in ks)| == |ks|
  {
    if |ks| > 0 {
      DistinctCount(ks[1..]);
      assert (set k | k in ks) == {ks[0]} + (set k | k in ks[1..]);
      assert ks[0] !in (set k | k in ks[1..]);
    }
  }

  /** One recommendation per kind present: as many as there are distinct kinds. */
  lemma {:induction false} RecommendationCount(signals: seq<Signal>)
    ensures |RecommendedKinds(signals)| == |KindsPresent(signals)|
  {
    var ks := RecommendedKinds(signals);
    assert forall i, j :: 0 <= i < j < |ks| ==> ks[i] != ks[j] by {
      forall i, j | 0 <= i < j < |ks|
        ensures ks[i] != ks[j]
      {
        assert ActionRank(ks[i]) < ActionRank(ks[j]);
      }
    }
    DistinctCount(ks);
    assert (set k | k in ks) == KindsPresent(signals);
  }

  /** The recommendation lines: one per kind present, in recommendation order. */
  function Recommendations(signals: seq<Signal>): (rs: seq<string>)
    ensures |rs| == |RecommendedKinds(signals)|
    ensures forall i :: 0 <= i < |rs| ==> rs[i] == Recommendation(RecommendedKinds(signals)[i])
  {
    var ks := RecommendedKinds(signals);
    seq(|ks|, i requires 0 <= i < |ks| => Recommendation(ks[i]))
  }

  /** A kind's recommendation is listed exactly when a signal of that kind is present,
      and no recommendation is listed twice. */
  lemma {:induction false} RecommendationsOncePerKind(signals: seq<Signal>)
    ensures forall k :: Recommendation(k) in Recommendations(signals) <==> HasKind(signals, k)
    ensures var rs := Recommendations(signals);
      forall i, j :: 0 <= i < j < |rs| ==> rs[i] != rs[j]
  {
    var ks := RecommendedKinds(signals);
    var rs := Recommendations(signals);
    forall k
      ensures Recommendation(k) in rs <==> HasKind(signals, k)
    {
      if Recommendation(k) in rs {
        var i :| 0 <= i < |rs| && rs[i] == Recommendation(k);
        if ks[i] != k {
          RecommendationInjective(ks[i], k);
        }
      }
      if HasKind(signals, k) {
        var i :| 0 <= i < |ks| && ks[i] == k;
        assert rs[i] == Recommendation(k);
      }
    }
    forall i, j | 0 <= i < j < |rs|
      ensures rs[i] != rs[j]
    {
      assert ActionRank(ks[i]) < ActionRank(ks[j]);
      RecommendationInjective(ks[i], ks[j]);
    }
  }

  /** One observation line per signal, in the order of the signals. */
  function Observations(signals: seq<Signal>, num: Ext -> string): (lines: seq<string>)
    ensures |lines| == |signals|
    ensures forall i :: 0 <= i < |signals| ==> ObservedKind(lines[i]) == Some(KindOf(signals[i]))
  {
    ObservationsNameKinds(signals, num);
    seq(|signals|, i requires 0 <= i < |signals| => Observation(signals[i], num))
  }

  /** Observation line i is of the kind of signal i and contains that signal's fields. */
  lemma {:induction false} ObservationsCiteSignals(signals: seq<Signal>, num: Ext -> string)
    ensures var lines := Observations(signals, num);
      forall i :: 0 <= i < |signals| ==>
        ObservedKind(lines[i]) == Some(KindOf(signals[i])) && CitesFields(lines[i], signals[i], num)
  {
    var lines := Observations(signals, num);
    forall i | 0 <= i < |signals|
      ensures CitesFields(lines[i], signals[i], num)
    {
      ObservationCitesFields(signals[i], num);
    }
  }

  /** The report's lines before joining. */
  function ReportLines(signals: seq<Signal>, num: Ext -> string): seq<string> {
    [Headline(signals), ObservationsHeader] + Observations(signals, num)
    + [ActionsHeader] + Recommendations(signals)
  }

  /** `generate_ai_insights` over an explicit signal list: the stable sentence exactly
      for the empty list, and otherwise a report that opens with its headline. */
  function InsightText(signals: seq<Signal>, num: Ext -> string): (text: string)
    ensures text == StableSentence <==> |signals| == 0
    ensures |signals| > 0 ==> Headline(signals) <= text
  {
    if |signals| == 0 then StableSentence
    else
      var text := Text.Join(ReportLines(signals, num), "\n");
      var h := Headline(signals);
      assert h <= text;
      assert h[0] == text[0];
      assert h[0] == '\U{26A0}';
      StableSentenceStart();
      text
  }

  /** A report's text is its lines joined by newlines: the headline, a newline, the
      observations header, a newline, then the observations, the actions header and the
      recommendations, one newline apart. */
  lemma {:induction false} InsightTextLayout(signals: seq<Signal>, num: Ext -> string)
    requires |signals| > 0
    ensures InsightText(signals, num)
      == Headline(signals) + "\n" + (ObservationsHeader + "\n"
         + Text.Join(Observations(signals, num) + [ActionsHeader] + Recommendations(signals), "\n"))
  {
    var h := Headline(signals);
    var obs := Observations(signals, num);
    var recs := Recommendations(signals);
    ReportLinesParts(signals, num);
    FiveSplit(h, ObservationsHeader, obs, ActionsHeader, recs);
    Text.JoinAppend([h], [ObservationsHeader] + (obs + [ActionsHeader] + recs), "\n");
    Text.JoinAppend([ObservationsHeader], obs + [ActionsHeader] + recs, "\n");
  }

  /** The report's lines in their five parts. */
  lemma {:induction false} ReportLinesParts(signals: seq<Signal>, num: Ext -> string)
    ensures ReportLines(signals, num)
      == [Headline(signals), ObservationsHeader] + Observations(signals, num)
         + [ActionsHeader] + Recommendations(signals)
  {
  }

  /** Five parts regrouped as the first line, the second line and the rest. */
  lemma {:induction false} FiveSplit<T>(h: T, o: T, obs: seq<T>, a: T, recs: seq<T>)
    ensures [h, o] + obs + [a] + recs == [h] + ([o] + (obs + [a] + recs))
  {
    assert [h, o] == [h] + [o];
  }

  /** Position 3 + |obs| + j of five parts is recommendation j. */
  lemma {:induction false} FivePartsTail<T>(h: T, o: T, obs: seq<T>, a: T, recs: seq<T>, j: nat)
    requires j < |recs|
    ensures var l := [h, o] + obs + [a] + recs;
      3 + |obs| + j < |l| && l[3 + |obs| + j] == recs[j]
  {
  }

  /** Line 3 + n + j of a report for n signals is the recommendation of the j-th kind
      in the fixed order. */
  lemma {:induction false} ReportRecommendationLine(signals: seq<Signal>, num: Ext -> string, j: nat)
    requires j < |RecommendedKinds(signals)|
    ensures 3 + |signals| + j < |ReportLines(signals, num)|
    ensures ReportLines(signals, num)[3 + |signals| + j] == Recommendation(RecommendedKinds(signals)[j])
  {
    var obs := Observations(signals, num);
    var recs := Recommendations(signals);
    ReportLinesParts(signals, num);
    FivePartsTail(Headline(signals), ObservationsHeader, obs, ActionsHeader, recs, j);
  }

  /** A report's text contains each of its lines. */
  lemma {:induction false} ReportTextContainsLine(signals: seq<Signal>, num: Ext -> string, k: nat, line: string)
    requires |signals| > 0
    requires k < |ReportLines(signals, num)| && ReportLines(signals, num)[k] == line
    ensures Contains(InsightText(signals, num), line)
  {
    JoinContains(ReportLines(signals, num), "\n", k);
  }

  /** Line 2 + i of a report is the observation of signal i. */
  lemma {:induction false} ReportObservationLine(signals: seq<Signal>, num: Ext -> string, i: nat)
    requires i < |signals|
    ensures 2 + i < |ReportLines(signals, num)|
    ensures ReportLines(signals, num)[2 + i] == Observation(signals[i], num)
  {
    var lines := ReportLines(signals, num);
    ReportShape(signals, num);
    assert lines[2 + i] == lines[2..2 + |signals|][i] == Observations(signals, num)[i];
  }

  /** A report's text contains the observation of every signal. */
  lemma {:induction false} InsightTextCitesObservations(signals: seq<Signal>, num: Ext -> string)
    requires |signals| > 0
    ensures forall i :: 0 <= i < |signals| ==> Contains(InsightText(signals, num), Observation(signals[i], num))
  {
    forall i | 0 <= i < |signals|
      ensures Contains(InsightText(signals, num), Observation(signals[i], num))
    {
      ReportObservationLine(signals, num, i);
      ReportTextContainsLine(signals, num, 2 + i, Observation(signals[i], num));
    }
  }

  /** A report's text contains the recommendation of every kind present. */
  lemma {:induction false} InsightTextCitesRecommendations(signals: seq<Signal>, num: Ext -> string)
    requires |signals| > 0
    ensures forall k :: HasKind(signals, k) ==> Contains(InsightText(signals, num), Recommendation(k))
  {
    forall k | HasKind(signals, k)
      ensures Contains(InsightText(signals, num), Recommendation(k))
    {
      RecommendationInText(signals, num, k);
    }
  }

  /** A report's text contains the recommendation of a kind that is present. */
  lemma {:induction false} RecommendationInText(signals: seq<Signal>, num: Ext -> string, k: Kind)
    requires |signals| > 0 && HasKind(signals, k)
    ensures Contains(InsightText(signals, num), Recommendation(k))
  {
    var ks := RecommendedKinds(signals);
    var j :| 0 <= j < |ks| && ks[j] == k;
    ReportRecommendationLine(signals, num, j);
    ReportTextContainsLine(signals, num, 3 + |signals| + j, Recommendation(k));
  }

  /** Positions in a concatenation of two single lines, a block, one line and a block. */
  lemma {:induction false} FiveParts<T>(h: T, o: T, obs: seq<T>, a: T, recs: seq<T>)
    ensures var l := [h, o] + obs + [a] + recs;
      && |l| == 3 + |obs| + |recs|
      && l[0] == h && l[1] == o
      && l[2..2 + |obs|] == obs
      && l[2 + |obs|] == a
      && l[3 + |obs|..] == recs
  {
    var l := [h, o] + obs + [a] + recs;
    assert l == ([h, o] + obs + [a]) + recs;
    assert l[3 + |obs|..] == recs;
    assert l[2..2 + |obs|] == obs;
  }

  /** The layout of a report: the headline, the observations header, one observation
      per signal in input order, the actions header, then the recommendations. */
  lemma {:induction false} ReportShape(signals: seq<Signal>, num: Ext -> string)
    ensures var lines := ReportLines(signals, num);
      && |lines| == 3 + |signals| + |RecommendedKinds(signals)|
      && lines[0] == Headline(signals)
      && lines[1] == ObservationsHeader
      && lines[2..2 + |signals|] == Observations(signals, num)
      && lines[2 + |signals|] == ActionsHeader
      && lines[3 + |signals|..] == Recommendations(signals)
  {
    var h := Headline(signals);
    var obs := Observations(signals, num);
    var recs := Recommendations(signals);
    assert ReportLines(signals, num) == [h, ObservationsHeader] + obs + [ActionsHeader] + recs;
    FiveParts(h, ObservationsHeader, obs, ActionsHeader, recs);
  }

  /** What a reader of the report lines finds: the headline for the severities
      present, the observations header, then for each signal, in input order, a line
      of that signal's kind, the actions header, and the recommendations of the
      kinds present in the fixed order drop, churn, margin, regional. */
  lemma {:induction false} ReportReadsBack(signals: seq<Signal>, num: Ext -> string)
    ensures var lines := ReportLines(signals, num);
      && |lines| == 3 + |signals| + |RecommendedKinds(signals)|
      && (lines[0] == AttentionHeadline <==> HasSeverity(signals, High))
      && (lines[0] == MonitorHeadline <==> !HasSeverity(signals, High))
      && lines[1] == ObservationsHeader
      && (forall i :: 0 <= i < |signals| ==> ObservedKind(lines[2 + i]) == Some(KindOf(signals[i])))
      && lines[2 + |signals|] == ActionsHeader
      && (forall i :: 0 <= i < |RecommendedKinds(signals)| ==>
            lines[3 + |signals| + i] == Recommendation(RecommendedKinds(signals)[i]))
  {
    ReportShape(signals, num);
    var lines := ReportLines(signals, num);
    var obs := Observations(signals, num);
    var recs := Recommendations(signals);
    forall i | 0 <= i < |signals|
      ensures ObservedKind(lines[2 + i]) == Some(KindOf(signals[i]))
    {
      assert lines[2 + i] == lines[2..2 + |signals|][i] == obs[i];
    }
    forall i | 0 <= i < |RecommendedKinds(signals)|
      ensures lines[3 + |signals| + i] == Recommendation(RecommendedKinds(signals)[i])
    {
      assert lines[3 + |signals| + i] == lines[3 + |signals|..][i] == recs[i];
    }
  }

  /** A report has 3 + n + k lines for n signals of k distinct kinds, and its
      recommendation block names each kind present exactly once. */
  lemma {:induction false} ReportCounts(signals: seq<Signal>, num: Ext -> string)
    ensures var lines := ReportLines(signals, num);
      && |lines| == 3 + |signals| + |KindsPresent(signals)|
      && (forall k :: Recommendation(k) in lines[3 + |signals|..] <==> HasKind(signals, k))
  {
    ReportShape(signals, num);
    RecommendationCount(signals);
    RecommendationsOncePerKind(signals);
  }

  /** The first character of the stable sentence. */
  lemma {:induction false} StableSentenceStart()
    ensures StableSentence[0] == 'B'
  {
  }
}

=== FILE: leaders.dfy ===
/** `idxmax` / `idxmin` over grouped sums. pandas sorts group keys ascending and
    returns the first extreme key in that order, so ties go to the smallest key. */
module Leaders {
  import opened Records
  import opened Aggregates
  import Text

  function DriverOf(t: Transaction): Driver {
    Driver(t.product, t.region)
  }

  /** The order of `(product, region)` group keys: by product, then by region. */
  predicate DriverLess(a: Driver, b: Driver) {
    Text.Less(a.product, b.product) || (a.product == b.product && Text.Less(a.region, b.region))
  }

  lemma {:induction false} DriverLessIsStrictOrder()
    ensures forall a :: !DriverLess(a, a)
    ensures forall a, b, c :: DriverLess(a, b) && DriverLess(b, c) ==> DriverLess(a, c)
  {
    forall a: Driver
      ensures !DriverLess(a, a)
    {
      Text.LessIrreflexive(a.product);
      Text.LessIrreflexive(a.region);
    }
    forall a: Driver, b: Driver, c: Driver | DriverLess(a, b) && DriverLess(b, c)
      ensures DriverLess(a, c)
    {
      if Text.Less(a.product, b.product) && Text.Less(b.product, c.product) {
        Text.LessTransitive(a.product, b.product, c.product);
      } else if Text.Less(a.region, b.region) && Text.Less(b.region, c.region) {
        Text.LessTransitive(a.region, b.region, c.region);
      }
    }
  }

  lemma {:induction false} DriverLessTotal(a: Driver, b: Driver)
    ensures a == b || DriverLess(a, b) || DriverLess(b, a)
  {
    Text.LessTotal(a.product, b.product);
    Text.LessTotal(a.region, b.region);
  }

  /** Revenue of the rows of week `w` that belong to the group `d`. */
  function PairRevenue(txs: seq<Transaction>, w: int, d: Driver): real {
    if |txs| == 0 then 0.0
    else (if txs[0].week == w && DriverOf(txs[0]) == d then txs[0].revenue else 0.0)
         + PairRevenue(txs[1..], w, d)
  }

  /** Row `i` falls in week `w` and belongs to the group `d`. */
  predicate InWeekGroup(txs: seq<Transaction>, w: int, i: int, d: Driver) {
    0 <= i < |txs| && txs[i].week == w && DriverOf(txs[i]) == d
  }

  /** Some row of week `w` belongs to the group `d`. */
  ghost predicate OccursInWeek(txs: seq<Transaction>, w: int, d: Driver) {
    exists i :: InWeekGroup(txs, w, i, d)
  }

  /** The group of every row of week `w`, in row order. */
  function WeekDrivers(txs: seq<Transaction>, w: int): (ds: seq<Driver>)
    ensures forall d :: d in ds <==> OccursInWeek(txs, w, d)
    ensures HasWeek(txs, w) ==> |ds| > 0
  {
    if |txs| == 0 then []
    else
      var rest := WeekDrivers(txs[1..], w);
      WeekGroupsCons(txs, w);
      (if txs[0].week == w then [DriverOf(txs[0])] else []) + rest
  }

  lemma {:induction false} WeekGroupsCons(txs: seq<Transaction>, w: int)
    requires |txs| > 0
    ensures forall d :: OccursInWeek(txs, w, d) <==>
      (txs[0].week == w && DriverOf(txs[0]) == d) || OccursInWeek(txs[1..], w, d)
    ensures HasWeek(txs, w) && txs[0].week != w ==> HasWeek(txs[1..], w)
  {
    forall d
      ensures OccursInWeek(txs, w, d) <==>
        (txs[0].week == w && DriverOf(txs[0]) == d) || OccursInWeek(txs[1..], w, d)
    {
      if txs[0].week == w && DriverOf(txs[0]) == d {
        assert InWeekGroup(txs, w, 0, d);
      }
      if i :| InWeekGroup(txs, w, i, d) {
        if i > 0 {
          assert InWeekGroup(txs[1..], w, i - 1, d);
        }
      }
      if i :| InWeekGroup(txs[1..], w, i, d) {
        assert InWeekGroup(txs, w, i + 1, d);
      }
    }
    if HasWeek(txs, w) && txs[0].week != w {
      var i :| 0 <= i < |txs| && txs[i].week == w;
      assert txs[1..][i - 1].week == w;
    }
  }

  /** The first group of maximal week revenue among `cands` in key order. */
  function MaxDriver(txs: seq<Transaction>, w: int, cands: seq<Driver>): (d: Driver)
    requires |cands| > 0
    ensures d in cands
    ensures forall c :: c in cands ==> PairRevenue(txs, w, c) <= PairRevenue(txs, w, d)
    ensures forall c :: c in cands && PairRevenue(txs, w, c) == PairRevenue(txs, w, d)
                        ==> !DriverLess(c, d)
  {
    if |cands| == 1 then
      DriverLessIsStrictOrder();
      cands[0]
    else
      var best := MaxDriver(txs, w, cands[1..]);
      var c := cands[0];
      DriverLessIsStrictOrder();
      assert forall x :: x in cands ==> x == c || x in cands[1..];
      if PairRevenue(txs, w, c) > PairRevenue(txs, w, best)
         || (PairRevenue(txs, w, c) == PairRevenue(txs, w, best) && DriverLess(c, best))
      then c
      else best
  }

  /** The (product, region) group with the most revenue in week `w`, the smallest
      key on ties. */
  function TopDriver(txs: seq<Transaction>, w: int): Driver
    requires HasWeek(txs, w)
  {
    MaxDriver(txs, w, WeekDrivers(txs, w))
  }

  /** A group of week `w` whose revenue no other group of that week beats, and that
      sorts first among the groups it ties with. */
  ghost predicate IsTopDriver(txs: seq<Transaction>, w: int, d: Driver) {
    && OccursInWeek(txs, w, d)
    && forall i, c :: InWeekGroup(txs, w, i, c) ==>
         && PairRevenue(txs, w, c) <= PairRevenue(txs, w, d)
         && (PairRevenue(txs, w, c) == PairRevenue(txs, w, d) ==> !DriverLess(c, d))
  }

  /** The driver named for a week is exactly the group that `IsTopDriver` describes:
      it qualifies, and no other group does. */
  lemma {:induction false} TopDriverCharacterized(txs: seq<Transaction>, w: int, d: Driver)
    requires HasWeek(txs, w)
    ensures IsTopDriver(txs, w, d) <==> d == TopDriver(txs, w)
  {
    var top := TopDriver(txs, w);
    var ds := WeekDrivers(txs, w);
    assert IsTopDriver(txs, w, top) by {
      forall i, c | InWeekGroup(txs, w, i, c)
        ensures c in ds
      {
      }
    }
    if IsTopDriver(txs, w, d) {
      var i :| InWeekGroup(txs, w, i, top);
      var j :| InWeekGroup(txs, w, j, d);
      DriverLessTotal(d, top);
    }
  }

  /** Every region that occurs in the rows, once per row. */
  function RegionsOf(txs: seq<Transaction>): (rs: seq<string>)
    ensures |rs| == |txs|
    ensures forall i :: 0 <= i < |txs| ==> rs[i] == txs[i].region
  {
    seq(|txs|, i requires 0 <= i < |txs| => txs[i].region)
  }

  /** The first region of minimal total profit among `cands` in name order. */
  function MinRegion(txs: seq<Transaction>, cands: seq<string>): (r: string)
    requires |cands| > 0
    ensures r in cands
    ensures forall c :: c in cands ==> RegionProfit(txs, r) <= RegionProfit(txs, c)
    ensures forall c :: c in cands && RegionProfit(txs, c) == RegionProfit(txs, r)
                        ==> !Text.Less(c, r)
  {
    if |cands| == 1 then
      Text.LessIsStrictOrder();
      cands[0]
    else
      var best := MinRegion(txs, cands[1..]);
      var c := cands[0];
      Text.LessIsStrictOrder();
      assert forall x :: x in cands ==> x == c || x in cands[1..];
      if RegionProfit(txs, c) < RegionProfit(txs, best)
         || (RegionProfit(txs, c) == RegionProfit(txs, best) && Text.Less(c, best))
      then c
      else best
  }

  /** The region with the least total profit in a non-empty table, the smallest
      name on ties. */
  function WorstRegion(txs: seq<Transaction>): string
    requires |txs| > 0
  {
    MinRegion(txs, RegionsOf(txs))
  }

  /** A region that occurs in the rows, whose total profit no other region undercuts,
      and that sorts first among the regions it ties with. */
  ghost predicate IsWorstRegion(txs: seq<Transaction>, r: string) {
    && (exists i :: 0 <= i < |txs| && txs[i].region == r)
    && forall i :: 0 <= i < |txs| ==>
         && RegionProfit(txs, r) <= RegionProfit(txs, txs[i].region)
         && (RegionProfit(txs, txs[i].region) == RegionProfit(txs, r) ==> !Text.Less(txs[i].region, r))
  }

  /** The region named as underperforming is exactly the one `IsWorstRegion`
      describes: it qualifies, and no other region does. */
  lemma {:induction false} WorstRegionCharacterized(txs: seq<Transaction>, r: string)
    requires |txs| > 0
    ensures IsWorstRegion(txs, r) <==> r == WorstRegion(txs)
  {
    var worst := WorstRegion(txs);
    var rs := RegionsOf(txs);
    assert IsWorstRegion(txs, worst) by {
      assert forall i :: 0 <= i < |txs| ==> txs[i].region in rs;
      var k :| 0 <= k < |rs| && rs[k] == worst;
      assert txs[k].region == worst;
    }
    if IsWorstRegion(txs, r) {
      var i :| 0 <= i < |txs| && txs[i].region == r;
      var j :| 0 <= j < |txs| && txs[j].region == worst;
      Text.LessTotal(r, worst);
    }
  }
}

=== FILE: metrics.dfy ===
/** The scalar business metrics: profit, profit margin and discount impact. */
module Metrics {

  function Profit(sales: real, cost: real): (p: real)
    ensures p + cost == sales
  {
    sales - cost
  }

  /** Profit as a fraction of sales; zero sales give a zero margin instead of a
      division by zero. */
  function ProfitMargin(sales: real, cost: real): (m: real)
    ensures sales == 0.0 ==> m == 0.0
    ensures sales != 0.0 ==> m * sales == Profit(sales, cost)
  {
    if sales == 0.0 then 0.0 else (sales - cost) / sales
  }

  /** The amount taken off `sales` by a discount of `percent` percent. */
  function DiscountImpact(sales: real, percent: real): (d: real)
    ensures d * 100.0 == sales * percent
  {
    sales * (percent / 100.0)
  }

  /** Selling at cost leaves no margin. */
  lemma {:induction false} BreakEvenMargin(sales: real)
    requires sales != 0.0
    ensures ProfitMargin(sales, sales) == 0.0
  {
  }

  /** Costless sales keep everything: a margin of one. */
  lemma {:induction false} FreeGoodsMargin(sales: real)
    requires sales != 0.0
    ensures ProfitMargin(sales, 0.0) == 1.0
  {
  }

  /** On positive sales the margin is below one exactly when there is a positive cost,
      and negative exactly when cost exceeds sales. */
  lemma {:induction false} MarginBounds(sales: real, cost: real)
    requires sales > 0.0
    ensures ProfitMargin(sales, cost) < 1.0 <==> cost > 0.0
    ensures ProfitMargin(sales, cost) < 0.0 <==> cost > sales
  {
    var m := ProfitMargin(sales, cost);
    assert m * sales == sales - cost;
    if m < 1.0 { assert m * sales < 1.0 * sales; } else { assert m * sales >= 1.0 * sales; }
    if m < 0.0 { assert m * sales < 0.0; } else { assert m * sales >= 0.0; }
  }

  /** No discount removes nothing, a full discount removes all sales. */
  lemma {:induction false} DiscountExtremes(sales: real)
    ensures DiscountImpact(sales, 0.0) == 0.0
    ensures DiscountImpact(sales, 100.0) == sales
  {
  }

  /** Discounts add up: two discounts on the same sales remove the sum of their parts. */
  lemma {:induction false} DiscountAdditive(sales: real, p: real, q: real)
    ensures DiscountImpact(sales, p + q) == DiscountImpact(sales, p) + DiscountImpact(sales, q)
  {
  }
}

=== FILE: records.dfy ===
/** The value types the signal engine works on: one processed transaction row
    and the typed signals the detector emits. */
module Records {
  import opened Floats

  /** One row of the processed dataset. `profit_margin`, `week` and `month` are
      taken as given fields: they are derived upstream by the ETL step. */
  datatype Transaction = Transaction(
    date: string,
    product: string,
    region: string,
    customerSegment: string,
    quantity: nat,
    revenue: real,
    cost: real,
    profit: real,
    profitMargin: real,
    week: int,
    month: int,
    churnRisk: string)

  /** The `churn_risk` value the churn rule counts. */
  const HighChurnRisk := "High"

  datatype Severity = Medium | High

  /** The (product, region) group that contributed most revenue in a dropping week. */
  datatype Driver = Driver(product: string, region: string)

  /** A signal record, tagged by its `signal` kind. `changePct` and `avgMargin`
      are percentages (the ratio times 100), before rounding for display. */
  datatype Signal =
    | RevenueDrop(week: int, changePct: Ext, baseline: string, severity: Severity, drivers: Driver)
    | LowMargin(avgMargin: real, severity: Severity)
    | HighChurn(count: nat, severity: Severity)
    | RegionalUnderperformance(region: string, severity: Severity)

  /** The value of a signal's `signal` key. */
  datatype Kind = RevenueDropKind | LowMarginKind | HighChurnKind | RegionalKind

  function KindOf(s: Signal): Kind {
    match s
    case RevenueDrop(_, _, _, _, _) => RevenueDropKind
    case LowMargin(_, _) => LowMarginKind
    case HighChurn(_, _) => HighChurnKind
    case RegionalUnderperformance(_, _) => RegionalKind
  }

  /** Some signal of the list has kind `k`. */
  predicate HasKind(signals: seq<Signal>, k: Kind) {
    exists i :: 0 <= i < |signals| && KindOf(signals[i]) == k
  }

  /** Some signal of the list has severity `sev`. */
  predicate HasSeverity(signals: seq<Signal>, sev: Severity) {
    exists i :: 0 <= i < |signals| && signals[i].severity == sev
  }

  /** The distinct kinds present in a signal list. */
  function KindsPresent(signals: seq<Signal>): (ks: set<Kind>)
    ensures forall k :: k in ks <==> HasKind(signals, k)
  {
    set i | 0 <= i < |signals| :: KindOf(signals[i])
  }

  /** The distinct severities present in a signal list. */
  function Severities(signals: seq<Signal>): (ss: set<Severity>)
    ensures forall sev :: sev in ss <==> HasSeverity(signals, sev)
  {
    set i | 0 <= i < |signals| :: signals[i].severity
  }
}

=== FILE: results.dfy ===
/** Optional values and success/failure results used across the model. */
module Results {

  /** A value that may be absent (pandas' NaN baseline, an unrecognised line). */
  datatype Option<+T> = None | Some(value: T)

  /** The outcome of an operation that the Python program can abort by raising. */
  datatype Result<+R, +E> = Success(value: R) | Failure(error: E)
}

=== FILE: schema.dfy ===
/** Input-schema validation for an uploaded dataset. */
module Schema {

  /** The column names a dataset must carry. */
  const RequiredColumns: set<string> := {
    "date",
    "product",
    "region",
    "customer_segment",
    "quantity",
    "revenue",
    "cost",
    "profit",
    "profit_margin",
    "week",
    "month",
    "churn_risk"
  }

  predicate NoDuplicates(xs: seq<string>) {
    forall i, j :: 0 <= i < j < |xs| ==> xs[i] != xs[j]
  }

  /** The required columns the dataset lacks, each once, in no particular order
      (the Python check lists a set difference, whose iteration order is unspecified). */
  method ValidateSchema(columns: seq<string>) returns (missing: seq<string>)
    ensures forall c :: c in missing <==> c in RequiredColumns && c !in columns
    ensures NoDuplicates(missing)
    ensures |missing| == 0 <==> forall c :: c in RequiredColumns ==> c in columns
  {
    missing := [];
    var rest := RequiredColumns;
    while rest != {}
      invariant rest <= RequiredColumns
      invariant forall c :: c in missing <==> c in RequiredColumns - rest && c !in columns
      invariant NoDuplicates(missing)
      decreases |rest|
    {
      var c :| c in rest;
      if c !in columns {
        missing := missing + [c];
      }
      rest := rest - {c};
    }
    if |missing| > 0 {
      assert missing[0] in missing;
    }
  }
}

=== FILE: text.dfy ===
/** Text helpers that mirror the Python behaviour the reports rely on:
    string ordering (used by pandas to sort group keys), `str()` of an
    integer, and joining lines. */
module Text {

  /** Python's `<` on `str`: lexicographic by code point, a proper prefix sorts first. */
  predicate Less(a: string, b: string)
    decreases |a|
  {
    if |a| == 0 then |b| > 0
    else if |b| == 0 then false
    else if a[0] != b[0] then a[0] < b[0]
    else Less(a[1..], b[1..])
  }

  lemma {:induction false} LessIrreflexive(a: string)
    ensures !Less(a, a)
    decreases |a|
  {
    if |a| > 0 {
      LessIrreflexive(a[1..]);
    }
  }

  lemma {:induction false} LessTransitive(a: string, b: string, c: string)
    requires Less(a, b) && Less(b, c)
    ensures Less(a, c)
    decreases |a|
  {
    if |a| > 0 && a[0] == b[0] && b[0] == c[0] {
      LessTransitive(a[1..], b[1..], c[1..]);
    }
  }

  /** The string order is a strict order, stated for all strings at once. */
  lemma {:induction false} LessIsStrictOrder()
    ensures forall a :: !Less(a, a)
    ensures forall a, b, c :: Less(a, b) && Less(b, c) ==> Less(a, c)
  {
    forall a: string
      ensures !Less(a, a)
    {
      LessIrreflexive(a);
    }
    forall a: string, b: string, c: string | Less(a, b) && Less(b, c)
      ensures Less(a, c)
    {
      LessTransitive(a, b, c);
    }
  }

  /** Any two distinct strings are ordered one way or the other. */
  lemma {:induction false} LessTotal(a: string, b: string)
    ensures a == b || Less(a, b) || Less(b, a)
    decreases |a|
  {
    if |a| > 0 && |b| > 0 && a[0] == b[0] {
      LessTotal(a[1..], b[1..]);
      if a[1..] == b[1..] {
        assert a == [a[0]] + a[1..] && b == [b[0]] + b[1..];
      }
    }
  }

  lemma {:induction false} LessAsymmetric(a: string, b: string)
    requires Less(a, b)
    ensures !Less(b, a)
  {
    if Less(b, a) {
      LessTransitive(a, b, a);
      LessIrreflexive(a);
    }
  }

  predicate IsDigit(c: char) {
    '0' <= c <= '9'
  }

  function DigitChar(d: nat): (c: char)
    requires d < 10
    ensures IsDigit(c)
    ensures c as int - '0' as int == d
  {
    ('0' as int + d) as char
  }

  /** Decimal text of a natural number, as Python's `str(n)`: digits only, and no
      leading zero except for 0 itself. */
  function NatText(n: nat): (r: string)
    ensures |r| > 0
    ensures forall i :: 0 <= i < |r| ==> IsDigit(r[i])
    ensures r[0] == '0' ==> n == 0
  {
    if n < 10 then [DigitChar(n)] else NatText(n / 10) + [DigitChar(n % 10)]
  }

  /** Decimal text of an integer, as Python's `str(n)`: a `-` exactly when `n` is
      negative, followed by the canonical digits of its magnitude, which read back
      as that magnitude. */
  function IntText(n: int): (r: string)
    ensures |r| > 0
    ensures n >= 0 <==> IsDigit(r[0])
    ensures n < 0 ==> r[0] == '-'
    ensures var digits := if n < 0 then r[1..] else r;
      && |digits| > 0
      && (forall i :: 0 <= i < |digits| ==> IsDigit(digits[i]))
      && (digits[0] == '0' ==> n == 0)
      && DigitsValue(digits) == (if n < 0 then -n else n)
  {
    if n < 0 then
      NatTextRoundTrip(-n);
      "-" + NatText(-n)
    else
      NatTextRoundTrip(n);
      NatText(n)
  }

  /** Reads a string of decimal digits back as a number. */
  function DigitsValue(s: string): nat
    requires forall i :: 0 <= i < |s| ==> IsDigit(s[i])
  {
    if |s| == 0 then 0
    else
      assert IsDigit(s[|s| - 1]);
      DigitsValue(s[..|s| - 1]) * 10 + (s[|s| - 1] as int - '0' as int)
  }

  /** The decimal text of `n` reads back as `n`: no two numbers share a text. */
  lemma {:induction false} NatTextRoundTrip(n: nat)
    ensures DigitsValue(NatText(n)) == n
  {
    if n >= 10 {
      var s := NatText(n);
      assert s[..|s| - 1] == NatText(n / 10);
      NatTextRoundTrip(n / 10);
    }
  }

  /** The parts, with `sep` between each neighbouring pair, as Python's `join`. */
  function Join(parts: seq<string>, sep: string): (r: string)
    ensures |parts| > 0 ==> parts[0] <= r
  {
    if |parts| == 0 then ""
    else if |parts| == 1 then parts[0]
    else parts[0] + sep + Join(parts[1..], sep)
  }

  /** Joining two non-empty lists of parts puts one separator between the two joins:
      every later part sits after the earlier ones, one separator apart. */
  lemma {:induction false} JoinAppend(a: seq<string>, b: seq<string>, sep: string)
    requires |a| > 0 && |b| > 0
    ensures Join(a + b, sep) == Join(a, sep) + sep + Join(b, sep)
    decreases |a|
  {
    if |a| == 1 {
      assert (a + b)[1..] == b;
    } else {
      assert (a + b)[1..] == a[1..] + b;
      JoinAppend(a[1..], b, sep);
    }
  }

  /** Total length of a list of strings. */
  function TotalLength(parts: seq<string>): nat {
    if |parts| == 0 then 0 else |parts[0]| + TotalLength(parts[1..])
  }

  /** A join holds every part and one separator between each neighbouring pair. */
  lemma {:induction false} JoinLength(parts: seq<string>, sep: string)
    requires |parts| > 0
    ensures |Join(parts, sep)| == TotalLength(parts) + (|parts| - 1) * |sep|
  {
    if |parts| > 1 {
      JoinLength(parts[1..], sep);
    }
  }
}
